=== FILE: README.md ===
# Waitress core, modelled in Dafny

Waitress publishes a library of Remote Actions (scripts with a JSON
descriptor and a YAML description) to a Salesforce record store. This
project models its core and proves properties of that model. The core has
three parts:

- `classes/parser.py`. The descriptor parser does four things:
  - It classifies each descriptor's platform as Windows, macOS, Combined
    or untyped (`_get_ra_type`).
  - It extracts one record per `*.json` file found by the folder walk
    (`_read_json_file`, `parse_json_folder`).
  - It lists the names that occur on only one of two sides, the JSON
    records and the category sheet (`get_delta_dataframe`).
  - It left-joins the category sheet with the records on `Name` (`df_all`).
- `classes/salesforce.py`. The record-store client does five things:
  - the base 64 helper (`encode_to_b64_string`);
  - the listing of existing records and their projection
    (`_get_all_records`);
  - the bodies of the create, upload and sharing requests;
  - the per-row pipeline create → upload → grant (`process_dataframe`);
  - the bulk delete (`delete_all_ras`).
- `remote-actions-repo.py`, with a byte-identical copy in
  `examples/remote-actions-repo.py`. The repository scanner classifies
  scripts by suffix, finds the combined-platform YAML files, derives each
  script's YAML and JSON paths, and builds one record per script.

Modules:

| file | module | contents |
|---|---|---|
| `values.dfy` | `Values` | `Option` and `Outcome` (a value, or `Raised` for an uncaught Python exception). `Value` stands for Python/JSON values: None, bool, number, NaN, str, list, dict. It comes with truthiness, `.get` and `[]`, and `Gather`, a loop whose steps may raise. |
| `text.dfy` | `Text` | `str` and POSIX `os.path` operations. Split and join are proved inverse. |
| `base64.dfy` | `Base64` | The base 64 encoding of section 4 of RFC 4648 and a validating decoder. The round trip and injectivity are proved. |
| `parser.dfy` | `Parser` | `classes/parser.py` |
| `salesforce.dfy` | `Salesforce` | `classes/salesforce.py` |
| `scanner.dfy` | `RepoScanner` | `remote-actions-repo.py` |

How the outside world is modelled:

- HTTP is not executed. Every request the client would send is recorded as a
  `Request` (verb, URL, body).
- The store's answers are inputs, as `Option<Value>`. None stands for "no
  response": the client's request helpers return None after an exception
  or an error status.
- The per-row answers of `process_dataframe` are a function from row index to
  `Replies`.
- The per-record fetches of the listing are a function from URL to response.
- Files are a map from path to bytes.
- The folder walks are sequences of visited files. Existence checks are a set
  of paths, and the parsed YAML documents are a map from path to `Value`.
- An exception that escapes to the caller is `Raised`. An `exit(code)` is
  `Parser.Status.Exit(code)`.

## Model

| member | source | states |
|---|---|---|
| `Parser.RaTypeOf` | classes/parser.py:237-261 | The four platform outcomes, each in both directions. Combined needs both platform entries truthy. Windows needs the Windows entry truthy and the macOS entry None, and macOS the converse. A truthy `scriptInfo` that is not a dict raises. |
| `Parser.PlatformSymmetry` | classes/parser.py:250-255 | Swapping the two platform entries swaps Windows and macOS and leaves Combined, untyped and raising unchanged. |
| `Parser.ReadJsonFile` | classes/parser.py:202-235 | The result is a record exactly when the content is a dict whose type can be computed and which has a "name" key. It is an escaping exception exactly when "name" is missing; otherwise the file is unreadable. A record keeps the file path, copies the name, and takes description and purpose with `.get` (None when absent). Its type is the one `_get_ra_type` computes. |
| `Parser.ReadDescriptorFile` | classes/parser.py:210-218 | Reading back a descriptor written from a record gives that record (name, description, purpose, type, path). |
| `Parser.CollectFatal` | classes/parser.py:103-125 | The walk ends in `exit(1)` exactly when some `*.json` file raises past the reader. |
| `Parser.Collect` | classes/parser.py:103-112 | The walk can only end in `exit(1)`, never another code. It collects at most one record per walked file. |
| `Parser.CollectSources` | classes/parser.py:103-109 | Every collected record was read from one of the walked `*.json` files. |
| `Parser.CollectReadsOnlyJson` | classes/parser.py:107 | Files not ending in ".json" do not affect the result. There are at most as many records as JSON files. |
| `Parser.CollectAppend` | classes/parser.py:103-109 | Records come in traversal order: walking a + b gives the records of a, then those of b. |
| `Parser.ParseJsonFolder` | classes/parser.py:85-131 | A missing folder gives `exit(1)`, and so does an exception escaping the walk. `exit(0)` happens exactly when every JSON file was unreadable. A success is the walk's non-empty list of records, and a walk that finds records always succeeds with them. |
| `Parser.NoRecordMeansNothingParsed` | classes/parser.py:126-131 | The walk collects no record exactly when every JSON file is unreadable. |
| `Parser.KeepSingles` | classes/parser.py:151 | Each value keeps its multiplicity when it occurs once in the whole list, and disappears otherwise. |
| `Parser.Delta` | classes/parser.py:143-152 | After `drop_duplicates(keep=False)` on the concatenation, a value occurs exactly once if it occurred exactly once before, and not at all otherwise. |
| `Parser.DeltaMembers` | classes/parser.py:151 | A name is in the delta exactly when it occurs once across both lists. When neither list repeats a name, the delta is the symmetric difference. A name occurs in it at most once. |
| `Parser.Matches` | classes/parser.py:188 | The records matching a name are exactly the records with that name. |
| `Parser.MatchesAppend` | classes/parser.py:188 | The records matching a name in a + b are those matching in a, then those in b, so order and multiplicity are kept. |
| `Parser.MatchesCount` | classes/parser.py:188 | A record with the looked-up name is matched as often as it occurs among the records; a record with another name is never matched. |
| `Parser.Expand` | classes/parser.py:188 | A category row with matches yields one row per match, in the matches' order, each pairing it with that record; with none it yields exactly one row without a record. |
| `Parser.ExpandCount` | classes/parser.py:188 | In the rows of one category row, the pairing with a record occurs as often as that record among its matches. |
| `Parser.LeftJoin` | classes/parser.py:188 | The join has at least one row per category row. |
| `Parser.LeftJoinAppend` | classes/parser.py:188 | The join keeps the sheet's order: joining a + b is joining a, then joining b. |
| `Parser.LeftJoinPairCount` | classes/parser.py:188 | A category row and a record with its name are paired (copies of the row) × (copies of the record) times, and never when the names differ, as in a relational left join. |
| `Parser.LeftJoinAloneCount` | classes/parser.py:188 | A category row stands alone once per copy when no record has its name, and never otherwise. |
| `Parser.LeftJoinMembers` | classes/parser.py:188 | A row pairs a category row with a record exactly when their names agree. A row carries no record exactly when no record has its name. |
| `Parser.LeftJoinUniqueNames` | classes/parser.py:188 | When record names are distinct, row i of the join is category row i with the record bearing its name, if there is one. |
| `Parser.JoinAll` | classes/parser.py:173-197 | The join runs exactly when both tables are non-empty; otherwise `exit(0)`. A result is the left join of the category sheet with the records, so it starts with the first category row. |
| `Parser.ToRow` | classes/parser.py:188 | A joined row has all eight columns. Name, Category, Internal and Doc come from the category row. A matched record supplies Description, Purpose, Path and the Type name of its platform. With no match, Description, Purpose, Type and Path are NaN, and Path is NaN only then. |
| `Base64.Encode` | classes/salesforce.py:67 | An encoding is made of whole groups of four characters, and is non-empty for non-empty input. |
| `Base64.EncodeLength` | classes/salesforce.py:67 | The encoding of n bytes has 4·⌈n/3⌉ characters. |
| `Base64.RoundTrip` | classes/salesforce.py:67 | Decoding an encoding gives the original bytes. |
| `Base64.EncodeInjective` | classes/salesforce.py:67 | Different byte strings have different encodings. |
| `Salesforce.EncodeToB64String` | classes/salesforce.py:56-69 | The result decodes to the arguments concatenated in order. No arguments give "". |
| `Salesforce.Succeeded` | classes/salesforce.py:306 | Success needs a response. A missing response is no success. With a response, the test raises exactly when the body has no "success" entry; otherwise it is that entry's truthiness. |
| `Salesforce.Project` | classes/salesforce.py:168-176 | Each of the seven remote fields lands under its local name, and a field the record lacks gives None. |
| `Salesforce.FetchOne` | classes/salesforce.py:164-176 | Fetching a listed item works exactly when it has a string Id, the fetch of that record's URL answers, and the answer is a dict. The record is then that answer's projection. |
| `Salesforce.FetchRecords` | classes/salesforce.py:163-177 | The listing loop raises exactly when some item's fetch raises. Otherwise it gives one record per item, in order. |
| `Salesforce.ExistingRecords` | classes/salesforce.py:154-181 | No response, or a `totalSize` that is not positive, gives no records. A non-numeric `totalSize` raises. With a positive `totalSize`, records that cannot be listed raise, and listed records give exactly the per-item fetch loop. A non-empty result has one fetched record per listed item, in order. |
| `Salesforce.CreatePayload` | classes/salesforce.py:195-207 | The create body exists exactly when the row has all five columns. Each record field then holds its column's value. |
| `Salesforce.CreateRecord` | classes/salesforce.py:189-211 | The create step raises exactly when Name is missing or not a string. Without a body nothing is sent. Otherwise exactly one POST to the record URL carries the body, and the reply is handed back. |
| `Salesforce.CreatedRecordReadsBack` | classes/salesforce.py:168-176 | A created record, once it has an id, projects back to the row's Name, Description, Category, Type and Doc. |
| `Salesforce.TextRead` | classes/salesforce.py:229-230 | Text-mode reading leaves no CR and changes nothing in a file without CR. It shortens the file by one character per CR LF pair, and a leading CR becomes LF. |
| `Salesforce.TextReadAppend` | classes/salesforce.py:229-230 | Text-mode reading is local. A file split anywhere except inside a CR LF pair reads as its first part's text followed by its second part's. |
| `Salesforce.VersionData` | classes/salesforce.py:230-232 | The uploaded text decodes back to the file's text. |
| `Salesforce.UploadBody` | classes/salesforce.py:231-235 | Title and PathOnClient are the base name, and VersionData decodes to the text. |
| `Salesforce.UploadPayload` | classes/salesforce.py:226-244 | The upload body exists exactly when Path is a string naming an existing file. It is built from the base name and the file's text. |
| `Salesforce.UploadJsonFile` | classes/salesforce.py:213-248 | At most one request is sent: the POST to the upload URL. A response is handed back only when that POST was sent. |
| `Salesforce.ContentDocumentId` | classes/salesforce.py:279 | A found id is the first listed record's ContentDocumentId. |
| `Salesforce.GrantPayloadLinksReplies` | classes/salesforce.py:278-285 | From a create reply with id rid and a lookup reply whose first record names the document cid, the sharing body links exactly cid to rid, view-only. |
| `Salesforce.GrantPayload` | classes/salesforce.py:279-285 | The sharing body exists exactly when the content document id and the created record's id are present. It links the two, view-only ("V") for all users. |
| `Salesforce.GrantPermission` | classes/salesforce.py:250-294 | A GET for the content document is sent exactly when the upload response has an id. The sharing POST follows exactly when the lookup answered and the body could be built. Only that POST's reply is handed back. |
| `Salesforce.GrantStage` | classes/salesforce.py:311-316 | The grant step sends the lookup exactly when the upload reply names a file id; it is a GET for that id. It then sends the sharing POST, carrying `GrantPayload` of the create reply and the lookup reply, exactly when the lookup answered and the payload can be built. It ends shared exactly when both were sent and the sharing reply succeeded. It crashes exactly when that reply raises, and fails otherwise. |
| `Salesforce.AfterUpload` | classes/salesforce.py:309-319 | The upload request comes first. The lookup goes out exactly when the upload succeeded and its reply names a file id. The share goes out exactly when, in addition, the lookup answered and `GrantPayload` can be built. An upload that reports failure fails the row at the upload step, and one whose reply raises crashes it there. After a successful upload, the row fails at the grant step exactly when the share was not sent or reported failure, and crashes there exactly when the sharing reply raises. It ends shared exactly when all three requests went out and the last succeeded. |
| `Salesforce.AfterCreate` | classes/salesforce.py:305-322 | The create request comes first. The upload goes out exactly when the create succeeded and there is an upload request. The lookup goes out exactly when the upload also succeeded and named a file id. The share goes out exactly when the lookup also answered and `GrantPayload` of the create reply and the lookup reply can be built. A failed or raising create fails or crashes the row at the create step. A failed or raising upload after a successful create fails or crashes it at the upload step. After both succeeded, the row fails at the grant step exactly when the share was not sent or reported failure, crashes there exactly when the sharing reply raises, and is shared otherwise. |
| `Salesforce.ProcessRow` | classes/salesforce.py:304-322 | The row sends at most four requests, in order: the create POST with `CreatePayload(row)`, the upload POST with `UploadPayload`, the lookup of the uploaded file's id, and the share POST with `GrantPayload` of the create and lookup replies. Each goes out exactly when the one before it succeeded and it can be built (`SendsCreate`, `SendsUpload`, `SendsLookup`, `SendsShare`). The row crashes at create exactly when Name is missing or not a string, or the create reply raises. It fails at create exactly when Name is a string and the create payload cannot be built or the create reports failure. It fails at upload exactly when the create succeeded and the named file is missing or the upload reports failure. It fails at grant exactly when the upload succeeded and the share was not sent or reported failure. It crashes at upload or grant exactly when that step's reply raises, and ends shared exactly when all four went out and the last succeeded. |
| `Salesforce.AllStepsSucceed` | classes/salesforce.py:309-313 | When every response succeeds and every lookup works, the row ends shared after four requests. |
| `Salesforce.SuccessfulRowIsShared` | classes/salesforce.py:304-313 | A row with a string Name, the create columns and the Path of an existing file ends shared after four requests, for any replies that pass every check the pipeline makes. |
| `Salesforce.AllSuccessfulPasses` | classes/salesforce.py:279-313 | Replies that report success with record id rid, file id fid and content document cid pass every check the pipeline makes, and the lookup uses fid. |
| `Salesforce.Sequence` | classes/salesforce.py:304 | The loop goes through the rows in order. A failing row moves on; only a raising row stops the loop, and it is the last one attempted. The requests sent are those of the attempted rows, in row order. |
| `Salesforce.ProcessDataframe` | classes/salesforce.py:296-322 | Row k's stage is the stage of processing row k on its own. No row before the last attempted one raises, and if no row raises, every row is processed. The requests sent are each attempted row's requests, in row order. |
| `Salesforce.JoinedRowPayloads` | classes/salesforce.py:196-202 | A row of the joined table always has the five create columns. It has an upload body exactly when it met a record whose file exists. |
| `Salesforce.DeleteUrl` | classes/salesforce.py:333-335 | The bulk-delete URL is the configured base, then the Ids joined by ',', then "&allOrNone=false". |
| `Salesforce.DeleteUrlCarriesIds` | classes/salesforce.py:333-335 | The bulk-delete URL carries every Id in order. Splitting its middle on ',' gives them back when no Id contains a comma. |
| `Salesforce.FailedIds` | classes/salesforce.py:339 | The failed ids are exactly the ids of items whose success is falsy. The comprehension raises exactly when an item lacks "success", or is a failure without an "id". |
| `Salesforce.IdTexts` | classes/salesforce.py:333-334 | Joining the Ids works exactly when every Id is a string, and keeps them in order. |
| `Salesforce.DeleteAllRas` | classes/salesforce.py:324-345 | No records means no request. Ids that are not all strings raise before anything is sent. Otherwise a single DELETE to the URL carrying every Id is sent. The delete raises exactly when the Ids cannot be joined, the reply is missing or not a list, or an item is malformed. Otherwise it reports exactly the failed ids of the reply. |
| `Salesforce.DeleteAllRasAsWritten` | classes/salesforce.py:337-341 | The code as written sends the same requests as the corrected one. It returns exactly when the corrected version reports no failed id. |
| `Salesforce.FailedDeletionRaises` | classes/salesforce.py:339-341 | One failed deletion makes the code as written raise after its DELETE went out. The corrected version reports that one Id. |
| `RepoScanner.Classify` | remote-actions-repo.py:27-31 | ".sh" gives macOS, and ".ps1" other than ".Tests.ps1" gives Windows, each in both directions. Nothing else is listed. |
| `RepoScanner.YamlIsNotAScript` | examples/remote-actions-repo.py:24-31 | A ".yaml" file is never listed as a script. |
| `RepoScanner.ListScripts` | remote-actions-repo.py:21-31 | The list holds exactly the listings of the walked files that are scripts. |
| `RepoScanner.ListScriptsAppend` | examples/remote-actions-repo.py:21-31 | The list keeps traversal order: listing a + b is listing a, then b. |
| `RepoScanner.CombinedYamls` | remote-actions-repo.py:24-26 | The combined list holds exactly the ".yaml" names whose lower-cased form contains "combined". |
| `RepoScanner.CombinedIgnoresCase` | examples/remote-actions-repo.py:25 | Detection does not depend on the letter case of the name. |
| `RepoScanner.SplitExtOfScript` | examples/remote-actions-repo.py:43 | For a script `stem.sh` or `stem.ps1` whose stem ends in neither '/' nor '.', `os.path.splitext` splits off exactly the suffix. |
| `RepoScanner.YamlPathOfScript` | examples/remote-actions-repo.py:43-44 | The YAML description of such a script is `stem.yaml`, beside it. |
| `RepoScanner.YamlPath` | remote-actions-repo.py:43-44 | A YAML path ends in ".yaml". |
| `RepoScanner.JsonPath` | remote-actions-repo.py:45 | The JSON path is the descriptor directory, then the full file name, then ".json". The file name can be read back from between them. |
| `RepoScanner.First` | remote-actions-repo.py:54 | `[0]` returns exactly on a non-empty list, giving its first item, or a non-empty string, giving its first character. Anything else raises. |
| `RepoScanner.YamlEntry` | remote-actions-repo.py:50-58 | A description yields a record exactly when its action, the action's name, synopsis and version, and the version's first item can all be looked up. The record takes the action's name and synopsis, the platform (the suffix tag when none is named), the first version, and the script's name and paths. |
| `RepoScanner.DescriptionReadsBack` | examples/remote-actions-repo.py:50-58 | Reading back a description written from a record's fields gives that record. |
| `RepoScanner.EntryFor` | remote-actions-repo.py:42-70 | Without a YAML description the record is the "NA" placeholder, which has no script file name. Every record keeps the script's path and JSON path. With a YAML description the record is the one built from it. |
| `RepoScanner.PlaceholderEntry` | remote-actions-repo.py:61-69 | A script without a description is named by its file name and gets "NA" for synopsis, platform and version. It keeps its path and JSON path, and has no script file name. |
| `RepoScanner.ExistingScripts` | examples/remote-actions-repo.py:41-42 | The scripts kept are exactly the listed ones whose path exists. |
| `RepoScanner.ExistingScriptsAppend` | examples/remote-actions-repo.py:41-42 | Filtering a + b for existing paths filters a, then b, so listing order is kept. |
| `RepoScanner.BuildRecords` | remote-actions-repo.py:41-70 | The loop raises exactly when some script's description raises. Otherwise it gives one record per existing script, in order. |
| `RepoScanner.ScanRecordsAreListedScripts` | examples/remote-actions-repo.py:41-72 | Every record is an existing script the walk listed. It is a placeholder exactly when there is no YAML beside the script. |
| `RepoScanner.ScanRepository` | remote-actions-repo.py:13-72 | The scan reports the walk's combined YAML files and at most one record per walked file. It raises exactly when building the records of the existing listed scripts raises, and otherwise reports exactly those records. |

## Left out

- HTTP, OAuth and headers are out of scope: the token request, the header,
  and the request helpers' logging and `raise_for_status`. Only their
  observable result, a response body or None, is modelled.
- pandas is out of scope. Tables are sequences of rows; a row is a map from
  column to `Value`. `DataFrame` construction, the Excel reading and writing
  (`_load_data_categories`, `save_to_excel`, the scanner's spreadsheet) and
  `existing_records`' type checks are not modelled.
- Logging, `print`, clocks and timestamps are out of scope. This includes
  the inverted "All records were deleted" message at
  classes/salesforce.py:342, which only logs.
- The assignment of the bulk-delete URL back into the attribute
  `URL_DELETE_ALL` (classes/salesforce.py:335) is not modelled: it matters
  only for a second call on the same object. `DeleteAllRas` takes the base
  URL as configured.
- The rendering of `URL_CONTENT_DOC_ID.format(id)` is kept symbolic, as
  `ContentDocOf(id)`, because `str()` of arbitrary values is not modelled.
- UTF-8 decoding errors are out of scope. File text is bytes; only the
  text-mode newline translation is modelled.
- YAML parsing is out of scope. A description that exists but does not
  parse is not modelled, and a `version` mapping with the key 0 is treated
  like any non-list (it raises).
- `Text.Lower` folds ASCII letters only; Python's `str.lower` folds all
  of Unicode.
- `Salesforce.UploadPayload`: a non-string Path is treated as no file. In
  Python an integer Path would be opened as a file descriptor.
- `Parser.LeftJoin`: its own contract only bounds the number of rows.
  The rows are stated by other members. `Parser.LeftJoinAppend` gives the
  order across category rows. `Parser.Expand` gives the rows of one
  category row. `Parser.LeftJoinPairCount` and `Parser.LeftJoinAloneCount`
  give each row's multiplicity, also under repeated names.
- `Salesforce.ContentDocumentId`: the contract states where a found id
  comes from, but not that a well-formed reply always yields one.
- `RepoScanner.YamlPath`: its own contract states only the ".yaml"
  suffix. The path itself is stated for script paths by
  `RepoScanner.YamlPathOfScript`.
- `Parser.Matches`: names are compared by structural equality of the
  model's values. pandas' merge also pairs missing keys with each other, so
  a NaN Name would meet a record whose name is null. Python's `==` also
  equates values of different types, such as `True` and `1.0`. Neither
  matching is modelled.
- The command line (`waitress.py`, `main.py`) is not part of this model.
  Nor are the one-off scripts (`clear-all-db.py`, `query-all-api.py`,
  `examples/manage-api.py`), `classes/logger.py`, `utils.py` and the
  configuration loading.
- `Parser.JoinAll`: the `exit(1)` handlers around the merge
  (classes/parser.py:189-197) are not modelled. The model's join cannot
  fail, so a merge that raises is not represented.
- `Salesforce.JoinedRowPayloads`: it assumes the fixed sheet schema, where
  the sheet and the descriptors share only the Name column. A sheet with
  another column of the same name would make pandas rename both to `_x`
  and `_y`, and the create step would then raise `KeyError`. That case is
  not modelled.
- Some behaviour is modelled as the code has it:
  - `df_all` ends the program with `exit(0)` when either table is empty
    (classes/parser.py:182-185).
  - The bulk delete sends one request that carries all Ids
    (classes/salesforce.py:333-336).
  - `process_dataframe` publishes every row of the joined table, whatever
    its Internal column says (classes/salesforce.py:304).

## Findings

| source | as written | input that shows it | evidently intended | confidence | as-written member | corrected member |
|---|---|---|---|---|---|---|
| classes/salesforce.py:341 | After collecting the ids of failed deletions, the error message subscripts that list with `'id'`, which raises `TypeError` whenever the list is non-empty. The DELETE has already been sent by then, so the deletions that did succeed stand, and the caller sees an exception instead of the list of failures. | One record with Id "a0X", and a DELETE reply `[{"id": "a0X", "success": false}]` | Report the failed ids and return. | not executed | `Salesforce.DeleteAllRasAsWritten` (counterexample `Salesforce.FailedDeletionRaises`) | `Salesforce.DeleteAllRas` |

=== FILE: base64.dfy ===
/** The base 64 encoding of section 4 of RFC 4648 (the encoding Python's
    `base64.b64encode` produces), with a validating decoder against which
    the encoder is proved: decoding an encoding gives the bytes back. */
module Base64 {
  import opened Values

  newtype byte = x: int | 0 <= x < 256

  /** The pad character of section 4 of RFC 4648. */
  const Pad: char := '='

  /** The character Table 1 of RFC 4648 gives the 6-bit value `v`:
      "A".."Z", "a".."z", "0".."9", "+", "/". */
  function CharOf(v: int): (c: char)
    requires 0 <= v < 64
  {
    if v < 26 then (v + 'A' as int) as char
    else if v < 52 then (v - 26 + 'a' as int) as char
    else if v < 62 then (v - 52 + '0' as int) as char
    else if v == 62 then '+'
    else '/'
  }

  /** The 6-bit value of a Table 1 character; -1 for any other character,
      the pad included. */
  function ValueOf(c: char): (v: int)
    ensures -1 <= v < 64
    ensures v >= 0 ==> CharOf(v) == c
  {
    if 'A' <= c <= 'Z' then c as int - 'A' as int
    else if 'a' <= c <= 'z' then c as int - 'a' as int + 26
    else if '0' <= c <= '9' then c as int - '0' as int + 52
    else if c == '+' then 62
    else if c == '/' then 63
    else -1
  }

  /** `ValueOf` inverts `CharOf`, and no value is written as the pad. */
  lemma ValueOfCharOf(v: int)
    requires 0 <= v < 64
    ensures ValueOf(CharOf(v)) == v
    ensures CharOf(v) != Pad
  {
  }

  /** Splitting `q * k + r` by `k` recovers `q` and `r`, for the two
      divisors the groups use. */
  lemma DivMod(q: int, r: int, k: int)
    requires k == 4 || k == 16 || k == 64
    requires 0 <= r < k
    ensures (q * k + r) / k == q && (q * k + r) % k == r
  {
  }

  /** Three bytes make four characters. */
  function EncodeGroup(b0: byte, b1: byte, b2: byte): string {
    [ CharOf(b0 as int / 4),
      CharOf(b0 as int % 4 * 16 + b1 as int / 16),
      CharOf(b1 as int % 16 * 4 + b2 as int / 64),
      CharOf(b2 as int % 64) ]
  }

  /** A final single byte: two characters and two pads. */
  function EncodeLastOne(b0: byte): string {
    [CharOf(b0 as int / 4), CharOf(b0 as int % 4 * 16), Pad, Pad]
  }

  /** Two final bytes: three characters and one pad. */
  function EncodeLastTwo(b0: byte, b1: byte): string {
    [CharOf(b0 as int / 4), CharOf(b0 as int % 4 * 16 + b1 as int / 16), CharOf(b1 as int % 16 * 4), Pad]
  }

  /** `base64.b64encode(b)`: every group of three bytes becomes four
      characters, and a final group of one or two bytes is padded, so the
      result is made of whole groups of four. */
  function Encode(b: seq<byte>): (r: string)
    ensures |r| % 4 == 0
    ensures |b| > 0 ==> |r| >= 4
    decreases |b|
  {
    if |b| == 0 then ""
    else if |b| == 1 then EncodeLastOne(b[0])
    else if |b| == 2 then EncodeLastTwo(b[0], b[1])
    else EncodeGroup(b[0], b[1], b[2]) + Encode(b[3..])
  }

  /** The encoding of n bytes has 4 characters per started group of 3. */
  lemma {:induction false} EncodeLength(b: seq<byte>)
    ensures |Encode(b)| == (|b| + 2) / 3 * 4
    decreases |b|
  {
    if |b| > 2 {
      EncodeLength(b[3..]);
      assert (|b| + 2) / 3 == (|b[3..]| + 2) / 3 + 1;
    }
  }

  /** Four characters make one, two or three bytes; pads may stand only in
      the last two places, and a pad in the third place needs one in the
      fourth. */
  function DecodeGroup(c0: char, c1: char, c2: char, c3: char): (r: Option<seq<byte>>)
    ensures r.Some? ==> 1 <= |r.value| <= 3
    ensures r.Some? && |r.value| == 3 ==> c2 != Pad && c3 != Pad
  {
    var v0, v1, v2, v3 := ValueOf(c0), ValueOf(c1), ValueOf(c2), ValueOf(c3);
    if v0 < 0 || v1 < 0 then None
    else if c2 == Pad && c3 == Pad then Some([(v0 * 4 + v1 / 16) as byte])
    else if v2 < 0 then None
    else if c3 == Pad then Some([(v0 * 4 + v1 / 16) as byte, (v1 % 16 * 16 + v2 / 4) as byte])
    else if v3 < 0 then None
    else Some([(v0 * 4 + v1 / 16) as byte, (v1 % 16 * 16 + v2 / 4) as byte, (v2 % 4 * 64 + v3) as byte])
  }

  /** The bytes a base 64 text stands for, or None when it is not a
      well-formed encoding: a length that is not a multiple of four, a
      character outside Table 1, or padding before the last group. */
  function Decode(s: string): Option<seq<byte>>
    decreases |s|
  {
    if |s| == 0 then Some([])
    else if |s| < 4 then None
    else
      match DecodeGroup(s[0], s[1], s[2], s[3])
      case None => None
      case Some(g) =>
        if |s| == 4 then Some(g)
        else if |g| < 3 then None
        else
          match Decode(s[4..])
          case None => None
          case Some(rest) => Some(g + rest)
  }

  lemma GroupRoundTrip(b0: byte, b1: byte, b2: byte)
    ensures var e := EncodeGroup(b0, b1, b2);
      DecodeGroup(e[0], e[1], e[2], e[3]) == Some([b0, b1, b2])
  {
    var x0, x1, x2 := b0 as int, b1 as int, b2 as int;
    var v0, v1, v2, v3 := x0 / 4, x0 % 4 * 16 + x1 / 16, x1 % 16 * 4 + x2 / 64, x2 % 64;
    ValueOfCharOf(v0);
    ValueOfCharOf(v1);
    ValueOfCharOf(v2);
    ValueOfCharOf(v3);
    DivMod(x0 % 4, x1 / 16, 16);
    DivMod(x1 % 16, x2 / 64, 4);
    assert v0 * 4 + v1 / 16 == x0;
    assert v1 % 16 * 16 + v2 / 4 == x1;
    assert v2 % 4 * 64 + v3 == x2;
  }

  lemma LastOneRoundTrip(b0: byte)
    ensures var e := EncodeLastOne(b0);
      DecodeGroup(e[0], e[1], e[2], e[3]) == Some([b0])
  {
    ValueOfCharOf(b0 as int / 4);
    ValueOfCharOf(b0 as int % 4 * 16);
    DivMod(b0 as int % 4, 0, 16);
  }

  lemma LastTwoRoundTrip(b0: byte, b1: byte)
    ensures var e := EncodeLastTwo(b0, b1);
      DecodeGroup(e[0], e[1], e[2], e[3]) == Some([b0, b1])
  {
    var x0, x1 := b0 as int, b1 as int;
    ValueOfCharOf(x0 / 4);
    ValueOfCharOf(x0 % 4 * 16 + x1 / 16);
    ValueOfCharOf(x1 % 16 * 4);
    DivMod(x0 % 4, x1 / 16, 16);
    DivMod(x1 % 16, 0, 4);
  }

  /** A full group in front of a well-formed encoding decodes to its three
      bytes in front of that encoding's bytes. */
  lemma DecodeFullGroupFirst(g: string, rest: string, x: seq<byte>, y: seq<byte>)
    requires |g| == 4 && DecodeGroup(g[0], g[1], g[2], g[3]) == Some(x) && |x| == 3
    requires Decode(rest) == Some(y)
    ensures Decode(g + rest) == Some(x + y)
  {
    var s := g + rest;
    assert s[0] == g[0] && s[1] == g[1] && s[2] == g[2] && s[3] == g[3];
    if |rest| == 0 {
      assert s == g && x + y == x;
    } else {
      assert s[4..] == rest;
    }
  }

  /** The encoding of a full group in front of the encoding of the rest
      decodes to the group's bytes in front of the rest. */
  lemma RoundTripGroup(b: seq<byte>, rest: string)
    requires |b| > 2
    requires Decode(rest) == Some(b[3..])
    ensures Decode(EncodeGroup(b[0], b[1], b[2]) + rest) == Some(b)
  {
    GroupRoundTrip(b[0], b[1], b[2]);
    DecodeFullGroupFirst(EncodeGroup(b[0], b[1], b[2]), rest, [b[0], b[1], b[2]], b[3..]);
    assert [b[0], b[1], b[2]] + b[3..] == b;
  }

  /** Decoding an encoding gives the original bytes back. */
  lemma {:induction false} RoundTrip(b: seq<byte>)
    ensures Decode(Encode(b)) == Some(b)
    decreases |b|
  {
    if |b| == 0 {
    } else if |b| == 1 {
      LastOneRoundTrip(b[0]);
      assert b == [b[0]];
    } else if |b| == 2 {
      LastTwoRoundTrip(b[0], b[1]);
      assert b == [b[0], b[1]];
    } else {
      RoundTrip(b[3..]);
      RoundTripGroup(b, Encode(b[3..]));
    }
  }

  /** Different byte strings have different encodings. */
  lemma EncodeInjective(a: seq<byte>, b: seq<byte>)
    requires Encode(a) == Encode(b)
    ensures a == b
  {
    RoundTrip(a);
    RoundTrip(b);
  }
}

=== FILE: parser.dfy ===
/** The metadata parser (`JsonParser` in classes/parser.py): it classifies
    the platform of each Remote Action descriptor, extracts one record per
    descriptor file found under the JSON folder, left-joins the category
    sheet with those records on `Name`, and lists the names that occur on
    one side only. The folder walk, the file reads and the Excel sheet are
    inputs: a sequence of walk entries carrying already-parsed file
    contents, and a sequence of category rows. */
module Parser {
  import opened Values
  import opened Text

  /** How a program run ends early: `exit(code)`. */
  datatype Status<+T> = Ok(value: T) | Exit(code: nat)

  // ---------------------------------------------------------------------
  // Platform classification (`_get_ra_type`)
  // ---------------------------------------------------------------------

  /** The platform a Remote Action supports. */
  datatype RaType = Windows | MacOS | Combined | Untyped

  /** The text stored in the `Type` column. */
  function TypeName(t: RaType): string {
    match t
    case Windows => "Windows"
    case MacOS => "macOS"
    case Combined => "Combined"
    case Untyped => ""
  }

  const WindowsKey: string := "scriptWindows"
  const MacKey: string := "scriptMacOs"

  /** The `scriptInfo` field of a descriptor (None when absent). */
  function ScriptInfo(data: map<string, Value>): Value {
    Get(data, "scriptInfo")
  }

  /** The platform field `key` of a `scriptInfo` dictionary is truthy. */
  predicate Provides(info: Value, key: string) {
    info.Dict? && Truthy(Get(info.fields, key))
  }

  /** The platform field `key` of a `scriptInfo` dictionary is None. */
  predicate Lacks(info: Value, key: string) {
    info.Dict? && Get(info.fields, key) == Null
  }

  /** `_get_ra_type(json_obj)`. A falsy `scriptInfo` gives the empty type.
      A truthy one that is not a dictionary makes `.get` raise, which the
      caller turns into an unreadable file. */
  function RaTypeOf(data: map<string, Value>): (r: Outcome<RaType>)
    ensures r == Raised <==> Truthy(ScriptInfo(data)) && !ScriptInfo(data).Dict?
    ensures r == Returned(Combined) <==> Provides(ScriptInfo(data), WindowsKey) && Provides(ScriptInfo(data), MacKey)
    ensures r == Returned(Windows) <==> Provides(ScriptInfo(data), WindowsKey) && Lacks(ScriptInfo(data), MacKey)
    ensures r == Returned(MacOS) <==> Lacks(ScriptInfo(data), WindowsKey) && Provides(ScriptInfo(data), MacKey)
  {
    var info := ScriptInfo(data);
    if !Truthy(info) then Returned(Untyped)
    else if !info.Dict? then Raised
    else
      var win, mac := Get(info.fields, WindowsKey), Get(info.fields, MacKey);
      if Truthy(win) && Truthy(mac) then Returned(Combined)
      else if Truthy(win) && mac == Null then Returned(Windows)
      else if win == Null && Truthy(mac) then Returned(MacOS)
      else Returned(Untyped)
  }

  /** The same platform support seen from the other operating system. */
  function Mirror(t: RaType): RaType {
    match t
    case Windows => MacOS
    case MacOS => Windows
    case _ => t
  }

  /** A dictionary with the values (or absences) under `a` and `b` exchanged. */
  function SwapKeys(m: map<string, Value>, a: string, b: string): (s: map<string, Value>)
    requires a != b
    ensures Get(s, a) == Get(m, b) && Get(s, b) == Get(m, a)
  {
    (m - {a, b})
      + (if b in m then map[a := m[b]] else map[])
      + (if a in m then map[b := m[a]] else map[])
  }

  /** The descriptor with its two platform fields exchanged. */
  function SwapPlatforms(data: map<string, Value>): map<string, Value> {
    var info := ScriptInfo(data);
    if info.Dict? then data["scriptInfo" := Dict(SwapKeys(info.fields, WindowsKey, MacKey))] else data
  }

  /** The classification treats the two platforms alike: exchanging the
      Windows and macOS fields exchanges "Windows" and "macOS" and leaves
      "Combined", "" and the raising case as they are. */
  lemma PlatformSymmetry(data: map<string, Value>)
    ensures RaTypeOf(SwapPlatforms(data)) ==
      (match RaTypeOf(data) case Raised => Raised case Returned(t) => Returned(Mirror(t)))
  {
    var info := ScriptInfo(data);
    if info.Dict? {
      var swapped := SwapKeys(info.fields, WindowsKey, MacKey);
      assert ScriptInfo(SwapPlatforms(data)) == Dict(swapped);
      if info.fields != map[] {
        assert WindowsKey in info.fields || MacKey in info.fields || swapped != map[] by {
          var k :| k in info.fields;
          if k != WindowsKey && k != MacKey {
            assert k in swapped;
          }
        }
      } else {
        assert swapped == map[];
      }
    }
  }

  // ---------------------------------------------------------------------
  // Record extraction (`_read_json_file`)
  // ---------------------------------------------------------------------

  /** The record extracted from one descriptor file. */
  datatype Descriptor = Descriptor(name: Value, description: Value, purpose: Value, raType: RaType, path: string)

  /** What reading one file gives the folder walk: a record, nothing (the
      error is logged and the file skipped), or an exception that escapes
      `_read_json_file` (its `else` branch indexes `data_json['name']`
      outside the handlers). */
  datatype ReadResult = Unreadable | Parsed(d: Descriptor) | Fatal

  /** `_read_json_file(path)`, where `content` is the parsed JSON document,
      or None when the file does not exist or cannot be opened or parsed. */
  function ReadJsonFile(path: string, content: Option<Value>): (r: ReadResult)
    ensures r.Parsed? ==> r.d.path == path
    ensures r.Parsed? <==> (content.Some? && content.value.Dict?
      && RaTypeOf(content.value.fields).Returned? && "name" in content.value.fields)
    ensures r.Parsed? ==> var f := content.value.fields;
      && r.d.name == Get(f, "name") && r.d.description == Get(f, "description")
      && r.d.purpose == Get(f, "purpose") && RaTypeOf(f) == Returned(r.d.raType)
    ensures r.Fatal? <==> (content.Some? && content.value.Dict?
      && RaTypeOf(content.value.fields).Returned? && "name" !in content.value.fields)
  {
    match content
    case None => Unreadable
    case Some(data) =>
      if !data.Dict? then Unreadable
      else
        match RaTypeOf(data.fields)
        case Raised => Unreadable
        case Returned(t) =>
          if "name" !in data.fields then Fatal
          else Parsed(Descriptor(Get(data.fields, "name"), Get(data.fields, "description"),
                                 Get(data.fields, "purpose"), t, path))
  }

  /** A `scriptInfo` entry announcing platform support `t`. */
  function ScriptInfoEntry(t: RaType): map<string, Value> {
    match t
    case Windows => map["scriptInfo" := Dict(map[WindowsKey := Str("script")])]
    case MacOS => map["scriptInfo" := Dict(map[MacKey := Str("script")])]
    case Combined => map["scriptInfo" := Dict(map[WindowsKey := Str("script"), MacKey := Str("script")])]
    case Untyped => map[]
  }

  /** A descriptor file that holds the fields of `d`. */
  function DescriptorFile(d: Descriptor): Value {
    Dict(map["name" := d.name, "description" := d.description, "purpose" := d.purpose] + ScriptInfoEntry(d.raType))
  }

  /** Reading back a descriptor file gives the record it was written from:
      the extraction copies name, description and purpose and derives the
      type from the platform fields. */
  lemma ReadDescriptorFile(d: Descriptor)
    ensures ReadJsonFile(d.path, Some(DescriptorFile(d))) == Parsed(d)
  {
    var fields := DescriptorFile(d).fields;
    assert "name" in fields;
    assert RaTypeOf(fields) == Returned(d.raType);
  }

  // ---------------------------------------------------------------------
  // The folder walk (`parse_json_folder`)
  // ---------------------------------------------------------------------

  /** One file visited by `os.walk`: its directory, its name and its parsed
      content (None when unreadable). */
  datatype WalkEntry = WalkEntry(dir: string, filename: string, content: Option<Value>)

  function FullPath(e: WalkEntry): string {
    PathJoin(e.dir, e.filename)
  }

  /** Only files named `*.json` are read. */
  predicate IsJsonFile(e: WalkEntry) {
    EndsWith(e.filename, ".json")
  }

  function ReadEntry(e: WalkEntry): ReadResult {
    ReadJsonFile(FullPath(e), e.content)
  }

  /** The records the walk collects, in traversal order: non-JSON files are
      passed over, unreadable files skipped, and an escaping exception ends
      the program through the handler's `exit(1)`. */
  function Collect(entries: seq<WalkEntry>): (r: Status<seq<Descriptor>>)
    ensures r.Exit? ==> r.code == 1
    ensures r.Ok? ==> |r.value| <= |entries|
    decreases |entries|
  {
    if entries == [] then Ok([])
    else
      var e := entries[0];
      var rest := Collect(entries[1..]);
      var here := if IsJsonFile(e) then ReadEntry(e) else Unreadable;
      if here.Fatal? then Exit(1)
      else if rest.Exit? then rest
      else if here.Parsed? then Ok([here.d] + rest.value)
      else rest
  }

  /** `d` is the record of one of the JSON files among `entries`. */
  predicate ReadFromJsonFile(entries: seq<WalkEntry>, d: Descriptor) {
    exists k :: 0 <= k < |entries| && IsJsonFile(entries[k]) && ReadEntry(entries[k]) == Parsed(d)
  }

  /** The walk ends the program exactly when some JSON file escapes the
      reader. */
  lemma {:induction false} CollectFatal(entries: seq<WalkEntry>)
    ensures Collect(entries).Exit? <==>
      exists k :: 0 <= k < |entries| && IsJsonFile(entries[k]) && ReadEntry(entries[k]).Fatal?
    decreases |entries|
  {
    if entries != [] {
      CollectFatal(entries[1..]);
      assert forall k :: 1 <= k < |entries| ==> entries[k] == entries[1..][k - 1];
    }
  }

  /** A record read from a later file was read from the walk too. */
  lemma ReadFromLaterFile(entries: seq<WalkEntry>, d: Descriptor)
    requires entries != [] && ReadFromJsonFile(entries[1..], d)
    ensures ReadFromJsonFile(entries, d)
  {
    var k :| 0 <= k < |entries[1..]| && IsJsonFile(entries[1..][k]) && ReadEntry(entries[1..][k]) == Parsed(d);
    assert entries[k + 1] == entries[1..][k];
  }

  /** The records of a walk: those of its first file, then those of the
      rest. */
  lemma CollectFirst(entries: seq<WalkEntry>)
    requires entries != [] && Collect(entries).Ok?
    ensures Collect(entries[1..]).Ok?
    ensures var e := entries[0];
      Collect(entries).value ==
        (if IsJsonFile(e) && ReadEntry(e).Parsed? then [ReadEntry(e).d] else []) + Collect(entries[1..]).value
  {
  }

  /** Every record the walk returns was read from one of its JSON files. */
  lemma {:induction false} CollectSources(entries: seq<WalkEntry>)
    ensures Collect(entries).Ok? ==> forall d :: d in Collect(entries).value ==> ReadFromJsonFile(entries, d)
    decreases |entries|
  {
    if entries != [] && Collect(entries).Ok? {
      var e, tail := entries[0], entries[1..];
      CollectFirst(entries);
      CollectSources(tail);
      var r, rest := Collect(entries).value, Collect(tail).value;
      var parsed := IsJsonFile(e) && ReadEntry(e).Parsed?;
      forall d | d in r
        ensures ReadFromJsonFile(entries, d)
      {
        if parsed && d == ReadEntry(e).d {
          assert IsJsonFile(entries[0]) && ReadEntry(entries[0]) == Parsed(d);
        } else {
          assert d in rest;
          ReadFromLaterFile(entries, d);
        }
      }
    }
  }

  /** The entries whose name ends in ".json", in traversal order. */
  function JsonFiles(entries: seq<WalkEntry>): seq<WalkEntry>
    decreases |entries|
  {
    if entries == [] then []
    else (if IsJsonFile(entries[0]) then [entries[0]] else []) + JsonFiles(entries[1..])
  }

  /** Files not named `*.json` play no part in the walk's result, and there
      are no more records than JSON files. */
  lemma {:induction false} CollectReadsOnlyJson(entries: seq<WalkEntry>)
    ensures Collect(entries) == Collect(JsonFiles(entries))
    ensures Collect(entries).Ok? ==> |Collect(entries).value| <= |JsonFiles(entries)|
    decreases |entries|
  {
    if entries != [] {
      var e := entries[0];
      CollectReadsOnlyJson(entries[1..]);
      if IsJsonFile(e) {
        assert JsonFiles(entries) == [e] + JsonFiles(entries[1..]);
        assert ([e] + JsonFiles(entries[1..]))[1..] == JsonFiles(entries[1..]);
      } else {
        assert JsonFiles(entries) == JsonFiles(entries[1..]);
      }
    }
  }

  /** The walk keeps traversal order: the records of a longer walk are those
      of its first part followed by those of the rest. */
  lemma {:induction false} CollectAppend(a: seq<WalkEntry>, b: seq<WalkEntry>)
    requires Collect(a).Ok? && Collect(b).Ok?
    ensures Collect(a + b) == Ok(Collect(a).value + Collect(b).value)
    decreases |a|
  {
    if a == [] {
      assert a + b == b;
      assert Collect(a).value + Collect(b).value == Collect(b).value;
    } else {
      assert (a + b)[0] == a[0];
      assert (a + b)[1..] == a[1..] + b;
      CollectAppend(a[1..], b);
      var x, y := Collect(a[1..]).value, Collect(b).value;
      forall d: Descriptor ensures [d] + (x + y) == ([d] + x) + y {
      }
    }
  }

  /** `parse_json_folder()`: a missing folder ends the program with
      `exit(1)`, a walk that collects no record with `exit(0)`. */
  function ParseJsonFolder(rootExists: bool, entries: seq<WalkEntry>): (r: Status<seq<Descriptor>>)
    ensures !rootExists ==> r == Exit(1)
    ensures rootExists && Collect(entries).Exit? ==> r == Exit(1)
    ensures r.Ok? ==> r.value != [] && r == Collect(entries)
    ensures rootExists && Collect(entries).Ok? && Collect(entries).value != [] ==> r == Collect(entries)
    ensures r == Exit(0) <==> (rootExists &&
      forall k :: 0 <= k < |entries| && IsJsonFile(entries[k]) ==> ReadEntry(entries[k]).Unreadable?)
  {
    if !rootExists then Exit(1)
    else
      NoRecordMeansNothingParsed(entries);
      match Collect(entries)
      case Exit(c) => Exit(c)
      case Ok(ds) => if ds == [] then Exit(0) else Ok(ds)
  }

  lemma {:induction false} NoRecordMeansNothingParsed(entries: seq<WalkEntry>)
    ensures Collect(entries) == Ok([]) <==>
      forall k :: 0 <= k < |entries| && IsJsonFile(entries[k]) ==> ReadEntry(entries[k]).Unreadable?
    decreases |entries|
  {
    if entries != [] {
      NoRecordMeansNothingParsed(entries[1..]);
      assert forall k :: 1 <= k < |entries| ==> entries[k] == entries[1..][k - 1];
    }
  }

  // ---------------------------------------------------------------------
  // The delta (`get_delta_dataframe`)
  // ---------------------------------------------------------------------

  /** The number of occurrences of `x` in `s`. */
  function Count<T(==)>(s: seq<T>, x: T): nat
    decreases |s|
  {
    if s == [] then 0 else (if s[0] == x then 1 else 0) + Count(s[1..], x)
  }

  lemma {:induction false} CountAppend<T>(a: seq<T>, b: seq<T>, x: T)
    ensures Count(a + b, x) == Count(a, x) + Count(b, x)
    decreases |a|
  {
    if a == [] {
      assert a + b == b;
    } else {
      assert (a + b)[1..] == a[1..] + b;
      CountAppend(a[1..], b, x);
    }
  }

  lemma {:induction false} CountPositive<T>(s: seq<T>, x: T)
    ensures Count(s, x) > 0 <==> x in s
    decreases |s|
  {
    if s != [] {
      CountPositive(s[1..], x);
      assert x in s <==> s[0] == x || x in s[1..];
    }
  }

  /** The elements of `s` that occur exactly once in `all`, in order. */
  function KeepSingles(s: seq<Value>, all: seq<Value>): (r: seq<Value>)
    ensures forall x :: Count(r, x) == (if Count(all, x) == 1 then Count(s, x) else 0)
    decreases |s|
  {
    if s == [] then []
    else
      var rest := KeepSingles(s[1..], all);
      if Count(all, s[0]) == 1 then
        assert ([s[0]] + rest)[1..] == rest;
        [s[0]] + rest
      else rest
  }

  /** `get_delta_dataframe()`: the JSON names followed by the category
      names, with every value that occurs more than once dropped altogether
      (`drop_duplicates(keep=False)`). */
  function Delta(jsonNames: seq<Value>, categoryNames: seq<Value>): (r: seq<Value>)
    ensures forall x :: Count(r, x) == (if Count(jsonNames + categoryNames, x) == 1 then 1 else 0)
  {
    KeepSingles(jsonNames + categoryNames, jsonNames + categoryNames)
  }

  predicate NoDuplicates(s: seq<Value>) {
    forall i, j :: 0 <= i < j < |s| ==> s[i] != s[j]
  }

  lemma {:induction false} CountUnique(s: seq<Value>, x: Value)
    requires NoDuplicates(s)
    ensures Count(s, x) == (if x in s then 1 else 0)
    decreases |s|
  {
    if s != [] {
      CountUnique(s[1..], x);
      assert NoDuplicates(s[1..]);
    }
  }

  /** A name is in the delta exactly when it occurs once across both lists;
      when neither list repeats a name this is the symmetric difference:
      the names on one side only. */
  lemma DeltaMembers(jsonNames: seq<Value>, categoryNames: seq<Value>, x: Value)
    ensures x in Delta(jsonNames, categoryNames) <==> Count(jsonNames + categoryNames, x) == 1
    ensures NoDuplicates(jsonNames) && NoDuplicates(categoryNames) ==>
      (x in Delta(jsonNames, categoryNames) <==> (x in jsonNames) != (x in categoryNames))
    ensures Count(Delta(jsonNames, categoryNames), x) <= 1
  {
    CountPositive(Delta(jsonNames, categoryNames), x);
    if NoDuplicates(jsonNames) && NoDuplicates(categoryNames) {
      CountAppend(jsonNames, categoryNames, x);
      CountUnique(jsonNames, x);
      CountUnique(categoryNames, x);
    }
  }

  // ---------------------------------------------------------------------
  // The left join (`df_all`)
  // ---------------------------------------------------------------------

  /** One row of the category sheet. */
  datatype CategoryRow = CategoryRow(name: Value, category: Value, internal: bool, doc: Value)

  /** One row of the joined table: a category row and the descriptor record
      it met, if any. */
  datatype JoinedRow = JoinedRow(row: CategoryRow, found: Option<Descriptor>)

  /** The descriptor records named `name`, in order. */
  function Matches(descs: seq<Descriptor>, name: Value): (r: seq<Descriptor>)
    ensures forall d :: d in r <==> d in descs && d.name == name
    decreases |descs|
  {
    if descs == [] then []
    else (if descs[0].name == name then [descs[0]] else []) + Matches(descs[1..], name)
  }

  /** The records named `name` in a longer list are those in its first
      part, then those in the rest: matches keep the records' order and
      multiplicity. */
  lemma {:induction false} MatchesAppend(a: seq<Descriptor>, b: seq<Descriptor>, name: Value)
    ensures Matches(a + b, name) == Matches(a, name) + Matches(b, name)
    decreases |a|
  {
    if a == [] {
      assert a + b == b;
    } else {
      assert (a + b)[0] == a[0];
      assert (a + b)[1..] == a[1..] + b;
      MatchesAppend(a[1..], b, name);
    }
  }

  /** A record named `name` is matched as often as it occurs in the list,
      and a record with another name never. */
  lemma {:induction false} MatchesCount(descs: seq<Descriptor>, name: Value, d: Descriptor)
    ensures Count(Matches(descs, name), d) == if d.name == name then Count(descs, d) else 0
    decreases |descs|
  {
    if descs != [] {
      MatchesCount(descs[1..], name, d);
      var first: seq<Descriptor> := if descs[0].name == name then [descs[0]] else [];
      CountAppend(first, Matches(descs[1..], name), d);
    }
  }

  /** The joined rows of one category row `c` whose matching records are
      `ms`: one row per record, in order, or one row with no record. */
  function Expand(c: CategoryRow, ms: seq<Descriptor>): (r: seq<JoinedRow>)
    ensures |r| == if ms == [] then 1 else |ms|
    ensures forall i :: 0 <= i < |r| ==> r[i].row == c
    ensures ms == [] ==> r[0].found.None?
    ensures forall i :: 0 <= i < |ms| ==> r[i].found == Some(ms[i])
  {
    if ms == [] then [JoinedRow(c, None)]
    else seq(|ms|, i requires 0 <= i < |ms| => JoinedRow(c, Some(ms[i])))
  }

  /** In the rows of one category row, a pairing with record `d` occurs as
      often as `d` among the matches. */
  lemma {:induction false} ExpandCount(c: CategoryRow, ms: seq<Descriptor>, d: Descriptor)
    ensures Count(Expand(c, ms), JoinedRow(c, Some(d))) == Count(ms, d)
    decreases |ms|
  {
    if ms != [] {
      var x := JoinedRow(c, Some(ms[0]));
      var rest := if |ms| == 1 then [] else Expand(c, ms[1..]);
      assert Expand(c, ms) == [x] + rest by {
        if |ms| > 1 {
          ExpandCons(c, ms);
        }
      }
      assert ([x] + rest)[1..] == rest;
      if |ms| > 1 {
        ExpandCount(c, ms[1..], d);
      }
    }
  }

  /** Expanding two or more records: the row for the first, then the rows
      for the others. */
  lemma ExpandCons(c: CategoryRow, ms: seq<Descriptor>)
    requires |ms| > 1
    ensures Expand(c, ms) == [JoinedRow(c, Some(ms[0]))] + Expand(c, ms[1..])
  {
    var e, t := Expand(c, ms), Expand(c, ms[1..]);
    forall i | 0 <= i < |e|
      ensures e[i] == ([JoinedRow(c, Some(ms[0]))] + t)[i]
    {
      if i > 0 {
        assert e[i] == JoinedRow(c, Some(ms[i]));
        assert t[i - 1] == JoinedRow(c, Some(ms[1..][i - 1]));
      }
    }
  }

  /** `pd.merge(df_category, df_json, on="Name", how="left")`: every category
      row in order, once per descriptor record with its name (in the
      records' order), or once with no record when none has it. */
  function LeftJoin(cats: seq<CategoryRow>, descs: seq<Descriptor>): (r: seq<JoinedRow>)
    ensures |r| >= |cats|
    decreases |cats|
  {
    if cats == [] then [] else Expand(cats[0], Matches(descs, cats[0].name)) + LeftJoin(cats[1..], descs)
  }

  /** The join keeps category order: joining a sheet is joining its first
      part and then the rest. */
  lemma {:induction false} LeftJoinAppend(a: seq<CategoryRow>, b: seq<CategoryRow>, descs: seq<Descriptor>)
    ensures LeftJoin(a + b, descs) == LeftJoin(a, descs) + LeftJoin(b, descs)
    decreases |a|
  {
    if a == [] {
      assert a + b == b;
    } else {
      assert (a + b)[0] == a[0];
      assert (a + b)[1..] == a[1..] + b;
      LeftJoinAppend(a[1..], b, descs);
    }
  }

  /** The join's multiplicities, part one: a category row and a record with
      its name are paired once for each copy of the row times each copy of
      the record, and never when the names differ. */
  lemma {:induction false} LeftJoinPairCount(cats: seq<CategoryRow>, descs: seq<Descriptor>, c: CategoryRow, d: Descriptor)
    ensures Count(LeftJoin(cats, descs), JoinedRow(c, Some(d)))
      == if d.name == c.name then Count(cats, c) * Count(descs, d) else 0
    decreases |cats|
  {
    if cats != [] {
      var y := JoinedRow(c, Some(d));
      var ex, rest := Expand(cats[0], Matches(descs, cats[0].name)), LeftJoin(cats[1..], descs);
      LeftJoinPairCount(cats[1..], descs, c, d);
      CountAppend(ex, rest, y);
      assert Count(LeftJoin(cats, descs), y) == Count(ex, y) + Count(rest, y);
      if cats[0] == c {
        ExpandCount(c, Matches(descs, c.name), d);
        MatchesCount(descs, c.name, d);
        assert Count(cats, c) == 1 + Count(cats[1..], c);
        if d.name == c.name {
          Distribute(Count(cats[1..], c), Count(descs, d));
        }
      } else {
        CountPositive(ex, y);
        assert Count(cats, c) == Count(cats[1..], c);
      }
    }
  }

  /** The join's multiplicities, part two: a category row that no record
      names stands alone once per copy, and a named one never does. */
  lemma {:induction false} LeftJoinAloneCount(cats: seq<CategoryRow>, descs: seq<Descriptor>, c: CategoryRow)
    ensures Count(LeftJoin(cats, descs), JoinedRow(c, None))
      == if Matches(descs, c.name) == [] then Count(cats, c) else 0
    decreases |cats|
  {
    if cats != [] {
      var y := JoinedRow(c, None);
      var ex, rest := Expand(cats[0], Matches(descs, cats[0].name)), LeftJoin(cats[1..], descs);
      LeftJoinAloneCount(cats[1..], descs, c);
      CountAppend(ex, rest, y);
      assert Count(LeftJoin(cats, descs), y) == Count(ex, y) + Count(rest, y);
      if cats[0] == c && Matches(descs, c.name) == [] {
        assert ex == [y];
        assert Count(cats, c) == 1 + Count(cats[1..], c);
      } else {
        CountPositive(ex, y);
        assert cats[0] == c ==> Count(cats, c) == 1 + Count(cats[1..], c);
      }
    }
  }

  lemma Distribute(m: nat, k: nat)
    ensures (1 + m) * k == k + m * k
  {
  }

  /** A joined row pairs a category row with a record exactly when the names
      agree, and stands alone exactly when no record has the name. */
  lemma {:induction false} LeftJoinMembers(cats: seq<CategoryRow>, descs: seq<Descriptor>, c: CategoryRow, d: Descriptor)
    ensures JoinedRow(c, Some(d)) in LeftJoin(cats, descs) <==> c in cats && d in descs && d.name == c.name
    ensures JoinedRow(c, None) in LeftJoin(cats, descs) <==> c in cats && Matches(descs, c.name) == []
    decreases |cats|
  {
    if cats != [] {
      LeftJoinMembers(cats[1..], descs, c, d);
      var ms := Matches(descs, cats[0].name);
      var ex := Expand(cats[0], ms);
      assert c in cats <==> c == cats[0] || c in cats[1..];
      if ms != [] {
        assert JoinedRow(c, Some(d)) in ex <==> c == cats[0] && d in ms by {
          if c == cats[0] && d in ms {
            var i :| 0 <= i < |ms| && ms[i] == d;
            assert ex[i] == JoinedRow(c, Some(d));
          }
        }
      }
    }
  }

  /** The distinct names of the records. */
  predicate UniqueNames(descs: seq<Descriptor>) {
    forall i, j :: 0 <= i < j < |descs| ==> descs[i].name != descs[j].name
  }

  lemma {:induction false} NoMatches(descs: seq<Descriptor>, name: Value)
    requires forall d :: d in descs ==> d.name != name
    ensures Matches(descs, name) == []
    decreases |descs|
  {
    if descs != [] {
      NoMatches(descs[1..], name);
    }
  }

  lemma {:induction false} MatchesOfUnique(descs: seq<Descriptor>, name: Value)
    requires UniqueNames(descs)
    ensures |Matches(descs, name)| <= 1
    decreases |descs|
  {
    if descs != [] {
      MatchesOfUnique(descs[1..], name);
      assert UniqueNames(descs[1..]);
      if descs[0].name == name {
        forall d | d in descs[1..]
          ensures d.name != name
        {
          var k :| 0 <= k < |descs[1..]| && descs[1..][k] == d;
          assert descs[k + 1] == d;
        }
        NoMatches(descs[1..], name);
      }
    }
  }

  /** The first record named `name`, if any. */
  function FirstMatch(descs: seq<Descriptor>, name: Value): Option<Descriptor> {
    var ms := Matches(descs, name);
    if ms == [] then None else Some(ms[0])
  }

  /** When no two records share a name the join has one row per category
      row, in the sheet's order, each carrying the record with its name if
      there is one. */
  lemma {:induction false} LeftJoinUniqueNames(cats: seq<CategoryRow>, descs: seq<Descriptor>)
    requires UniqueNames(descs)
    ensures |LeftJoin(cats, descs)| == |cats|
    ensures forall i :: 0 <= i < |cats| ==> LeftJoin(cats, descs)[i] == JoinedRow(cats[i], FirstMatch(descs, cats[i].name))
    decreases |cats|
  {
    if cats != [] {
      var c, tail := cats[0], cats[1..];
      MatchesOfUnique(descs, c.name);
      LeftJoinUniqueNames(tail, descs);
      var head := JoinedRow(c, FirstMatch(descs, c.name));
      var r, rest := LeftJoin(cats, descs), LeftJoin(tail, descs);
      assert r == [head] + rest by {
        assert Expand(c, Matches(descs, c.name)) == [head];
      }
      forall i | 0 <= i < |cats|
        ensures r[i] == JoinedRow(cats[i], FirstMatch(descs, cats[i].name))
      {
        if i > 0 {
          assert r[i] == rest[i - 1] && cats[i] == tail[i - 1];
        }
      }
    }
  }

  /** `df_all`: the join is refused, with `exit(0)`, when either table is
      empty. */
  function JoinAll(cats: seq<CategoryRow>, descs: seq<Descriptor>): (r: Status<seq<JoinedRow>>)
    ensures r.Ok? <==> cats != [] && descs != []
    ensures r.Exit? ==> r.code == 0
    ensures r.Ok? ==> |r.value| >= |cats| && r.value[0].row == cats[0]
    ensures r.Ok? ==> r.value == LeftJoin(cats, descs)
  {
    if cats == [] || descs == [] then Exit(0) else Ok(LeftJoin(cats, descs))
  }

  /** The columns of the joined table. */
  const RowColumns: set<string> := {"Name", "Category", "Internal", "Doc", "Description", "Purpose", "Type", "Path"}

  /** The pandas row of a joined row, keyed by column name; the descriptor
      columns hold NaN when no record matched. */
  function ToRow(j: JoinedRow): (r: map<string, Value>)
    ensures forall c :: c in RowColumns ==> c in r
    ensures r["Name"] == j.row.name && r["Category"] == j.row.category && r["Doc"] == j.row.doc
    ensures r["Path"].NaN? <==> j.found.None?
    ensures j.found.Some? ==> r["Path"] == Str(j.found.value.path) && r["Description"] == j.found.value.description
    ensures j.found.Some? ==> r["Type"] == Str(TypeName(j.found.value.raType)) && r["Purpose"] == j.found.value.purpose
    ensures j.found.None? ==> r["Description"] == NaN && r["Purpose"] == NaN && r["Type"] == NaN
    ensures r["Internal"] == Bool(j.row.internal)
  {
    var c := j.row;
    map["Name" := c.name, "Category" := c.category, "Internal" := Bool(c.internal), "Doc" := c.doc]
      + match j.found
        case Some(d) => map["Description" := d.description, "Purpose" := d.purpose,
                            "Type" := Str(TypeName(d.raType)), "Path" := Str(d.path)]
        case None => map["Description" := NaN, "Purpose" := NaN, "Type" := NaN, "Path" := NaN]
  }
}

=== FILE: salesforce.dfy ===
/** The remote-record client (`Salesforce` in classes/salesforce.py): the
    base 64 helper, the listing of existing records, the payloads of the
    create, upload and grant-permission requests, the per-row
    create -> upload -> grant pipeline and the bulk delete.

    HTTP is not modelled. Every request the client would send is recorded
    as a `Request`, and the body of its response is supplied from outside
    as an `Option<Value>`: None when the request raised or came back with an
    error status (the client's `_run_http_request` then returns None), the
    parsed JSON body otherwise. Files on disk are a map from path to
    bytes. */
module Salesforce {
  import opened Values
  import opened Text
  import Base64
  import Parser

  type byte = Base64.byte

  /** The endpoints the client is configured with. */
  datatype Config = Config(
    urlQueryAll: string,
    urlDeleteAll: string,
    urlToRecord: string,
    urlFileUpload: string,
    urlGrantPermission: string)

  datatype Method = GET | POST | DELETE

  /** Where a request goes: a URL spelled out, or the content-document query
      URL (`URL_CONTENT_DOC_ID`) formatted with an uploaded file's id. */
  datatype Url = At(s: string) | ContentDocOf(fileId: Value)

  /** A request the client sends, with the dictionary it serialises as the
      JSON body. */
  datatype Request = Request(verb: Method, url: Url, body: Option<Value>)

  // ---------------------------------------------------------------------
  // The base 64 helper (`encode_to_b64_string`)
  // ---------------------------------------------------------------------

  /** `encode_to_b64_string(*parts)`: the arguments concatenated in order,
      then encoded as in section 4 of RFC 4648. */
  method EncodeToB64String(parts: seq<seq<byte>>) returns (r: string)
    ensures Base64.Decode(r) == Some(Concat(parts))
    ensures r == Base64.Encode(Concat(parts))
    ensures parts == [] ==> r == ""
  {
    var joined: seq<byte> := [];
    for i := 0 to |parts|
      invariant joined == Concat(parts[..i])
    {
      assert parts[..i + 1][..i] == parts[..i];
      joined := joined + parts[i];
    }
    assert parts[..|parts|] == parts;
    Base64.RoundTrip(joined);
    r := Base64.Encode(joined);
  }

  // ---------------------------------------------------------------------
  // Responses
  // ---------------------------------------------------------------------

  /** `resp and resp.json()["success"]`: false when no response came back;
      a body that is not a dictionary with a "success" entry raises. */
  function Succeeded(resp: Option<Value>): (r: Outcome<bool>)
    ensures r == Returned(true) ==> resp.Some?
    ensures resp.None? ==> r == Returned(false)
    ensures resp.Some? ==> (r.Raised? <==> Index(resp.value, "success").Raised?)
    ensures resp.Some? && r.Returned? ==> r.value == Truthy(Index(resp.value, "success").value)
  {
    match resp
    case None => Returned(false)
    case Some(body) =>
      match Index(body, "success")
      case Raised => Raised
      case Returned(v) => Returned(Truthy(v))
  }

  // ---------------------------------------------------------------------
  // Existing records (`_get_all_records`)
  // ---------------------------------------------------------------------

  /** A record of the remote store, as the client tabulates it. */
  datatype RemoteRecord = RemoteRecord(
    id: Value,
    name: Value,
    lastModified: Value,
    description: Value,
    category: Value,
    os: Value,
    details: Value)

  /** The local record of a fetched remote record: each remote field under
      its local name, None for a field the record lacks. */
  function Project(fields: map<string, Value>): (r: RemoteRecord)
    ensures "Id" in fields ==> r.id == fields["Id"]
    ensures "Id" !in fields ==> r.id == Null
    ensures "Name" in fields ==> r.name == fields["Name"]
    ensures "Name" !in fields ==> r.name == Null
    ensures "LastModifiedDate" in fields ==> r.lastModified == fields["LastModifiedDate"]
    ensures "LastModifiedDate" !in fields ==> r.lastModified == Null
    ensures "Description__c" in fields ==> r.description == fields["Description__c"]
    ensures "Description__c" !in fields ==> r.description == Null
    ensures "Category__c" in fields ==> r.category == fields["Category__c"]
    ensures "Category__c" !in fields ==> r.category == Null
    ensures "OS__c" in fields ==> r.os == fields["OS__c"]
    ensures "OS__c" !in fields ==> r.os == Null
    ensures "Details_URL__c" in fields ==> r.details == fields["Details_URL__c"]
    ensures "Details_URL__c" !in fields ==> r.details == Null
  {
    RemoteRecord(
      Get(fields, "Id"),
      Get(fields, "Name"),
      Get(fields, "LastModifiedDate"),
      Get(fields, "Description__c"),
      Get(fields, "Category__c"),
      Get(fields, "OS__c"),
      Get(fields, "Details_URL__c"))
  }

  /** The URL of one record: `URL_TO_RECORD + Id`. */
  function RecordUrl(cfg: Config, id: string): string {
    cfg.urlToRecord + id
  }

  /** Fetching one listed record by its Id. A listed item that is not a
      dictionary with a string "Id", a fetch that fails, or a fetched body
      that is not a dictionary raises. */
  function FetchOne(cfg: Config, item: Value, fetch: string -> Option<Value>): (r: Outcome<RemoteRecord>)
    ensures r.Returned? <==> (Index(item, "Id").Returned? && Index(item, "Id").value.Str?
      && fetch(RecordUrl(cfg, Index(item, "Id").value.s)).Some?
      && fetch(RecordUrl(cfg, Index(item, "Id").value.s)).value.Dict?)
    ensures r.Returned? ==> r.value == Project(fetch(RecordUrl(cfg, Index(item, "Id").value.s)).value.fields)
  {
    match Index(item, "Id")
    case Raised => Raised
    case Returned(id) =>
      if !id.Str? then Raised
      else
        match fetch(RecordUrl(cfg, id.s))
        case None => Raised
        case Some(body) => if body.Dict? then Returned(Project(body.fields)) else Raised
  }

  /** The loop over the listed records: one fetch per record, in order. */
  function FetchRecords(cfg: Config, items: seq<Value>, fetch: string -> Option<Value>): (r: Outcome<seq<RemoteRecord>>)
    ensures r.Raised? <==> exists k :: 0 <= k < |items| && FetchOne(cfg, items[k], fetch).Raised?
    ensures r.Returned? ==> |r.value| == |items|
    ensures r.Returned? ==> forall k :: 0 <= k < |items| ==> FetchOne(cfg, items[k], fetch) == Returned(r.value[k])
  {
    var outs := seq(|items|, k requires 0 <= k < |items| => FetchOne(cfg, items[k], fetch));
    assert forall k :: 0 <= k < |items| ==> outs[k] == FetchOne(cfg, items[k], fetch);
    Gather(outs)
  }

  /** `x > 0` for the `totalSize` entry; comparing anything but a number
      (or a boolean) with 0 raises. */
  function Positive(v: Value): Outcome<bool> {
    match v
    case Num(n) => Returned(n > 0.0)
    case Bool(b) => Returned(b)
    case NaN => Returned(false)
    case _ => Raised
  }

  /** Whether the listing reports records: `body["totalSize"] > 0`. */
  function ReportsRecords(body: Value): Outcome<bool> {
    match Index(body, "totalSize")
    case Raised => Raised
    case Returned(total) => Positive(total)
  }

  /** The items of `body["records"]` the loop visits. */
  function ListedItems(body: Value): Outcome<seq<Value>> {
    match Index(body, "records")
    case Raised => Raised
    case Returned(listed) => Elements(listed)
  }

  /** `_get_all_records()`: `query` is the response to the query-all
      request and `fetch` answers the per-record requests. No response, or
      a `totalSize` that is not positive, gives the empty table; otherwise
      there is one record per listed item, fetched by its Id. */
  function ExistingRecords(cfg: Config, query: Option<Value>, fetch: string -> Option<Value>): (r: Outcome<seq<RemoteRecord>>)
    ensures query.None? ==> r == Returned([])
    ensures query.Some? && ReportsRecords(query.value) == Returned(false) ==> r == Returned([])
    ensures query.Some? && ReportsRecords(query.value).Raised? ==> r.Raised?
    ensures query.Some? && ReportsRecords(query.value) == Returned(true) ==>
      && (ListedItems(query.value).Raised? ==> r.Raised?)
      && (ListedItems(query.value).Returned? ==> r == FetchRecords(cfg, ListedItems(query.value).value, fetch))
    ensures r.Returned? && r.value != [] ==>
      && query.Some? && ListedItems(query.value).Returned?
      && |r.value| == |ListedItems(query.value).value|
      && forall k :: 0 <= k < |r.value| ==> FetchOne(cfg, ListedItems(query.value).value[k], fetch) == Returned(r.value[k])
  {
    match query
    case None => Returned([])
    case Some(body) =>
      match ReportsRecords(body)
      case Raised => Raised
      case Returned(false) => Returned([])
      case Returned(true) =>
        match ListedItems(body)
        case Raised => Raised
        case Returned(items) => FetchRecords(cfg, items, fetch)
  }

  // ---------------------------------------------------------------------
  // The create request (`_create_ra_record`)
  // ---------------------------------------------------------------------

  /** A field of a new remote record and the row column it is taken from. */
  datatype FieldSource = FieldSource(field: string, column: string)

  /** The fields of a new remote record. */
  const CreateFields: seq<FieldSource> := [
    FieldSource("Category__c", "Category"),
    FieldSource("Description__c", "Description"),
    FieldSource("Details_URL__c", "Doc"),
    FieldSource("OS__c", "Type"),
    FieldSource("Name", "Name")]

  /** The body of the create request, or None when the row lacks one of the
      five columns (the `KeyError` is logged and nothing is sent). */
  function CreatePayload(row: map<string, Value>): (p: Option<Value>)
    ensures p.Some? <==> forall k :: 0 <= k < |CreateFields| ==> CreateFields[k].column in row
    ensures p.Some? ==> p.value.Dict?
    ensures p.Some? ==> forall k :: 0 <= k < |CreateFields| ==>
      CreateFields[k].field in p.value.fields && p.value.fields[CreateFields[k].field] == row[CreateFields[k].column]
  {
    if "Category" in row && "Description" in row && "Doc" in row && "Type" in row && "Name" in row then
      Some(Dict(map[
        "Category__c" := row["Category"],
        "Description__c" := row["Description"],
        "Details_URL__c" := row["Doc"],
        "OS__c" := row["Type"],
        "Name" := row["Name"]]))
    else
      assert CreateFields[0].column == "Category" && CreateFields[1].column == "Description";
      assert CreateFields[2].column == "Doc" && CreateFields[3].column == "Type" && CreateFields[4].column == "Name";
      None
  }

  /** The requests a step sent and the response it hands back. */
  datatype Call = Call(sent: seq<Request>, response: Option<Value>)

  /** `_create_ra_record(row)`, with `reply` the response to the POST. The
      debug line that starts it concatenates the row's Name with a string,
      so a row without a string Name raises before anything is sent. */
  function CreateRecord(cfg: Config, row: map<string, Value>, reply: Option<Value>): (r: Outcome<Call>)
    ensures r.Raised? <==> "Name" !in row || !row["Name"].Str?
    ensures r.Returned? && CreatePayload(row).None? ==> r.value == Call([], None)
    ensures r.Returned? && CreatePayload(row).Some? ==>
      r.value == Call([Request(POST, At(cfg.urlToRecord), CreatePayload(row))], reply)
  {
    if "Name" !in row || !row["Name"].Str? then Raised
    else
      match CreatePayload(row)
      case None => Returned(Call([], None))
      case Some(p) => Returned(Call([Request(POST, At(cfg.urlToRecord), Some(p))], reply))
  }

  /** A record created from a row reads back, through the listing's
      projection, with the row's Name, Description, Category, Type and Doc. */
  lemma CreatedRecordReadsBack(row: map<string, Value>, id: Value)
    requires CreatePayload(row).Some?
    ensures var rec := Project(CreatePayload(row).value.fields["Id" := id]);
      && rec.id == id
      && rec.name == row["Name"]
      && rec.description == row["Description"]
      && rec.category == row["Category"]
      && rec.os == row["Type"]
      && rec.details == row["Doc"]
  {
    var fields := CreatePayload(row).value.fields;
    assert CreateFields[0].field == "Category__c" && CreateFields[1].field == "Description__c";
    assert CreateFields[2].field == "Details_URL__c" && CreateFields[3].field == "OS__c";
    assert CreateFields[4].field == "Name";
  }

  // ---------------------------------------------------------------------
  // The upload request (`_upload_json_file`)
  // ---------------------------------------------------------------------

  const CR: byte := 13
  const LF: byte := 10

  /** The number of "\r\n" pairs in `b`. */
  function CrLfPairs(b: seq<byte>): nat
    decreases |b|
  {
    if |b| < 2 then 0 else (if b[0] == CR && b[1] == LF then 1 else 0) + CrLfPairs(b[1..])
  }

  /** Reading a file in text mode: "\r\n" and a lone "\r" both become "\n"
      (UTF-8 decoding and re-encoding is the identity on the bytes). */
  function TextRead(b: seq<byte>): (t: seq<byte>)
    ensures CR !in t
    ensures CR !in b ==> t == b
    ensures |t| == |b| - CrLfPairs(b)
    ensures |b| > 0 ==> |t| > 0 && t[0] == (if b[0] == CR then LF else b[0])
    decreases |b|
  {
    if b == [] then []
    else if b[0] == CR then [LF] + TextRead(if |b| > 1 && b[1] == LF then b[2..] else b[1..])
    else [b[0]] + TextRead(b[1..])
  }

  /** Reading in text mode is local: a file split anywhere except between
      the two bytes of a "\r\n" reads as its two parts, one after the other. */
  lemma {:induction false} TextReadAppend(a: seq<byte>, b: seq<byte>)
    requires a == [] || b == [] || a[|a| - 1] != CR || b[0] != LF
    ensures TextRead(a + b) == TextRead(a) + TextRead(b)
    decreases |a|
  {
    if a == [] {
      assert a + b == b;
    } else if b == [] {
      assert a + b == a;
    } else {
      var n := Consumed(a);
      assert Consumed(a + b) == n by {
        assert (a + b)[0] == a[0];
        assert |a| > 1 ==> (a + b)[1] == a[1];
      }
      assert (a + b)[n..] == a[n..] + b;
      TextReadStep(a);
      TextReadStep(a + b);
      TextReadAppend(a[n..], b);
      ConsAppend(if a[0] == CR then LF else a[0], TextRead(a[n..]), TextRead(b));
    }
  }

  /** The number of bytes the first step of a text-mode read consumes:
      both bytes of a leading CR LF, otherwise one. */
  function Consumed(b: seq<byte>): (n: nat)
    requires |b| > 0
    ensures 1 <= n <= |b|
  {
    if b[0] == CR && |b| > 1 && b[1] == LF then 2 else 1
  }

  /** One step of a text-mode read: the first character, then the rest. */
  lemma TextReadStep(b: seq<byte>)
    requires |b| > 0
    ensures TextRead(b) == [if b[0] == CR then LF else b[0]] + TextRead(b[Consumed(b)..])
  {
  }

  /** Prefixing one byte commutes with appending. */
  lemma ConsAppend(x: byte, p: seq<byte>, q: seq<byte>)
    ensures [x] + (p + q) == ([x] + p) + q
  {
  }

  /** A file's text as the upload carries it, in base 64 (the helper
      `encode_to_b64_string` with the text as its one argument). */
  function VersionData(text: seq<byte>): (v: string)
    ensures Base64.Decode(v) == Some(text)
  {
    Base64.RoundTrip(text);
    Base64.Encode(text)
  }

  /** The upload body for a file with base name `name` and text `text`:
      the text in base 64, and the name as title and client path. */
  function UploadBody(name: string, text: seq<byte>): (v: Value)
    ensures v.Dict?
    ensures "Title" in v.fields && "PathOnClient" in v.fields
      && v.fields["Title"] == v.fields["PathOnClient"] == Str(name)
    ensures "VersionData" in v.fields && v.fields["VersionData"].Str?
      && Base64.Decode(v.fields["VersionData"].s) == Some(text)
  {
    Dict(map["VersionData" := Str(VersionData(text)), "Title" := Str(name), "PathOnClient" := Str(name)])
  }

  /** The body of the upload request, or None when the row has no string
      Path naming an existing file (the error is logged and nothing is
      sent). The body names the file by its base name and carries its text
      as read in text mode. */
  function UploadPayload(row: map<string, Value>, files: map<string, seq<byte>>): (p: Option<Value>)
    ensures p.Some? <==> "Path" in row && row["Path"].Str? && row["Path"].s in files
    ensures p.Some? ==> p.value == UploadBody(Basename(row["Path"].s), TextRead(files[row["Path"].s]))
  {
    if "Path" !in row || !row["Path"].Str? || row["Path"].s !in files then None
    else Some(UploadBody(Basename(row["Path"].s), TextRead(files[row["Path"].s])))
  }

  /** `_upload_json_file(row)`, with `reply` the response to the POST. */
  function UploadJsonFile(cfg: Config, files: map<string, seq<byte>>, row: map<string, Value>, reply: Option<Value>): (r: Call)
    ensures |r.sent| <= 1
    ensures |r.sent| == 1 ==> r.sent[0].verb == POST && r.sent[0].url == At(cfg.urlFileUpload)
    ensures r.response.Some? ==> |r.sent| == 1 && r.response == reply
    ensures UploadPayload(row, files).None? ==> r == Call([], None)
    ensures UploadPayload(row, files).Some? ==>
      r == Call([Request(POST, At(cfg.urlFileUpload), UploadPayload(row, files))], reply)
  {
    match UploadPayload(row, files)
    case None => Call([], None)
    case Some(p) => Call([Request(POST, At(cfg.urlFileUpload), Some(p))], reply)
  }

  // ---------------------------------------------------------------------
  // The grant-permission requests (`_grant_permission`)
  // ---------------------------------------------------------------------

  /** `doc["records"][0]["ContentDocumentId"]`, or None where Python raises. */
  function ContentDocumentId(doc: Value): (r: Option<Value>)
    ensures r.Some? ==> exists xs :: (Index(doc, "records") == Returned(List(xs)) && |xs| > 0
      && Index(xs[0], "ContentDocumentId") == Returned(r.value))
  {
    match Index(doc, "records")
    case Raised => None
    case Returned(records) =>
      if records.List? && |records.items| > 0 then
        match Index(records.items[0], "ContentDocumentId")
        case Raised => None
        case Returned(id) => Some(id)
      else None
  }

  /** The body of the sharing-link request: the uploaded file's content
      document, viewable ("V") by all users, linked to the created record. */
  function GrantPayload(createBody: Value, doc: Value): (p: Option<Value>)
    ensures p.Some? <==> ContentDocumentId(doc).Some? && Index(createBody, "id").Returned?
    ensures p.Some? ==> p == Some(Dict(map[
      "ContentDocumentId" := ContentDocumentId(doc).value,
      "ShareType" := Str("V"),
      "Visibility" := Str("AllUsers"),
      "LinkedEntityId" := Index(createBody, "id").value]))
  {
    match ContentDocumentId(doc)
    case None => None
    case Some(cid) =>
      match Index(createBody, "id")
      case Raised => None
      case Returned(rid) =>
        Some(Dict(map["ContentDocumentId" := cid, "ShareType" := Str("V"), "Visibility" := Str("AllUsers"), "LinkedEntityId" := rid]))
  }

  /** The sharing link built from a create reply `{"id": rid}` and a
      lookup reply whose first record names the content document `cid`
      links exactly that document to exactly that record. */
  lemma GrantPayloadLinksReplies(rid: Value, cid: Value, more: seq<Value>)
    ensures var p := GrantPayload(Dict(map["id" := rid]),
                                  Dict(map["records" := List([Dict(map["ContentDocumentId" := cid])] + more)]));
      && p.Some?
      && Index(p.value, "LinkedEntityId") == Returned(rid)
      && Index(p.value, "ContentDocumentId") == Returned(cid)
      && Index(p.value, "ShareType") == Returned(Str("V"))
  {
  }

  /** `_grant_permission(create_response, upload_response)`: look up the
      content document of the uploaded file, then post the sharing link.
      Every failed lookup is logged and gives None, with no POST. */
  function GrantPermission(cfg: Config, createBody: Value, uploadBody: Value, docReply: Option<Value>, grantReply: Option<Value>): (r: Call)
    ensures |r.sent| <= 2
    ensures |r.sent| > 0 <==> Index(uploadBody, "id").Returned?
    ensures |r.sent| > 0 ==> r.sent[0] == Request(GET, ContentDocOf(Index(uploadBody, "id").value), None)
    ensures |r.sent| == 2 <==> (docReply.Some? && Index(uploadBody, "id").Returned?
      && GrantPayload(createBody, docReply.value).Some?)
    ensures |r.sent| == 2 ==>
      r.sent[1] == Request(POST, At(cfg.urlGrantPermission), GrantPayload(createBody, docReply.value))
    ensures r.response.Some? ==> |r.sent| == 2 && r.response == grantReply
  {
    match Index(uploadBody, "id")
    case Raised => Call([], None)
    case Returned(fileId) =>
      var lookup := Request(GET, ContentDocOf(fileId), None);
      match docReply
      case None => Call([lookup], None)
      case Some(doc) =>
        match GrantPayload(createBody, doc)
        case None => Call([lookup], None)
        case Some(p) => Call([lookup, Request(POST, At(cfg.urlGrantPermission), Some(p))], grantReply)
  }

  // ---------------------------------------------------------------------
  // The per-row pipeline (`process_dataframe`)
  // ---------------------------------------------------------------------

  datatype Step = CreateStep | UploadStep | GrantStep

  /** Where a row's processing ended: shared (`Permitted`), stopped at the
      first step whose response was missing or unsuccessful (`Failed`), or
      at a step that raised (`Crashed`, which ends the whole run). */
  datatype Stage = Permitted | Failed(at: Step) | Crashed(at: Step)

  /** The responses the store gives one row's requests. */
  datatype Replies = Replies(create: Option<Value>, upload: Option<Value>, contentDoc: Option<Value>, grant: Option<Value>)

  /** What processing one row sends and where it ends. */
  datatype RowRun = RowRun(sent: seq<Request>, stage: Stage)

  /** Whether `q` can be the k-th request of a row: the create POST, the
      upload POST, the content-document GET, then the sharing POST. */
  predicate Fits(cfg: Config, k: nat, q: Request) {
    if k == 0 then q.verb == POST && q.url == At(cfg.urlToRecord)
    else if k == 1 then q.verb == POST && q.url == At(cfg.urlFileUpload)
    else if k == 2 then q.verb == GET && q.url.ContentDocOf?
    else k == 3 && q.verb == POST && q.url == At(cfg.urlGrantPermission)
  }

  /** The grant step of a row whose record was created (`createBody`) and
      whose file was uploaded (`uploadBody`). */
  function GrantStage(cfg: Config, createBody: Value, uploadBody: Value, rep: Replies): (r: RowRun)
    ensures |r.sent| <= 2
    ensures r.stage == Permitted <==> |r.sent| == 2 && Succeeded(rep.grant) == Returned(true)
    ensures r.stage == Crashed(GrantStep) <==> |r.sent| == 2 && Succeeded(rep.grant).Raised?
    ensures r.stage == Failed(GrantStep) <==> |r.sent| < 2 || Succeeded(rep.grant) == Returned(false)
    ensures r.stage == Permitted || r.stage == Failed(GrantStep) || r.stage == Crashed(GrantStep)
    ensures |r.sent| > 0 ==> (Index(uploadBody, "id").Returned?
      && r.sent[0] == Request(GET, ContentDocOf(Index(uploadBody, "id").value), None))
    ensures |r.sent| == 2 ==> (rep.contentDoc.Some?
      && r.sent[1] == Request(POST, At(cfg.urlGrantPermission), GrantPayload(createBody, rep.contentDoc.value)))
    ensures r.sent == GrantPermission(cfg, createBody, uploadBody, rep.contentDoc, rep.grant).sent
    ensures |r.sent| > 0 <==> Index(uploadBody, "id").Returned?
    ensures |r.sent| == 2 <==> (Index(uploadBody, "id").Returned? && rep.contentDoc.Some?
      && GrantPayload(createBody, rep.contentDoc.value).Some?)
  {
    var g := GrantPermission(cfg, createBody, uploadBody, rep.contentDoc, rep.grant);
    match Succeeded(g.response)
    case Raised => RowRun(g.sent, Crashed(GrantStep))
    case Returned(false) => RowRun(g.sent, Failed(GrantStep))
    case Returned(true) => RowRun(g.sent, Permitted)
  }

  /** What follows the upload of a row whose record was created
      (`createBody`): `u` is the upload call, whose response decides whether
      the grant step runs. */
  function AfterUpload(cfg: Config, createBody: Value, u: Call, rep: Replies): (r: RowRun)
    requires |u.sent| <= 1
    requires |u.sent| == 1 ==> Fits(cfg, 1, u.sent[0])
    requires u.response.Some? ==> |u.sent| == 1 && u.response == rep.upload
    ensures |r.sent| <= 3
    ensures |r.sent| >= 2 ==> Succeeded(rep.upload) == Returned(true)
    ensures r.stage == Permitted <==> |r.sent| == 3 && Succeeded(rep.grant) == Returned(true)
    ensures r.stage == Permitted || r.stage == Failed(UploadStep) || r.stage == Crashed(UploadStep)
      || r.stage == Failed(GrantStep) || r.stage == Crashed(GrantStep)
    ensures r.stage == Failed(UploadStep) <==> Succeeded(u.response) == Returned(false)
    ensures r.stage == Crashed(UploadStep) <==> Succeeded(u.response).Raised?
    ensures r.stage == Crashed(GrantStep) <==> |r.sent| == 3 && Succeeded(rep.grant).Raised?
    ensures |r.sent| > 0 ==> |u.sent| == 1 && r.sent[0] == u.sent[0]
    ensures |r.sent| > 1 ==> (rep.upload.Some? && Index(rep.upload.value, "id").Returned?
      && r.sent[1] == Request(GET, ContentDocOf(Index(rep.upload.value, "id").value), None))
    ensures |r.sent| == 3 ==> (rep.contentDoc.Some?
      && r.sent[2] == Request(POST, At(cfg.urlGrantPermission), GrantPayload(createBody, rep.contentDoc.value)))
    ensures |u.sent| <= |r.sent| && r.sent[..|u.sent|] == u.sent
    ensures |r.sent| > 1 <==> Succeeded(u.response) == Returned(true) && Index(u.response.value, "id").Returned?
    ensures |r.sent| == 3 <==> (Succeeded(u.response) == Returned(true) && Index(u.response.value, "id").Returned?
      && rep.contentDoc.Some? && GrantPayload(createBody, rep.contentDoc.value).Some?)
    ensures r.stage == Failed(GrantStep) <==> (Succeeded(u.response) == Returned(true)
      && (|r.sent| < 3 || Succeeded(rep.grant) == Returned(false)))
  {
    match Succeeded(u.response)
    case Raised => RowRun(u.sent, Crashed(UploadStep))
    case Returned(false) => RowRun(u.sent, Failed(UploadStep))
    case Returned(true) =>
      var g := GrantStage(cfg, createBody, u.response.value, rep);
      RowRun(u.sent + g.sent, g.stage)
  }

  /** What follows the create call `c` of a row: `u` is the row's upload
      call, consulted only once the create succeeded. */
  function AfterCreate(cfg: Config, c: Call, u: Call, rep: Replies): (r: RowRun)
    requires |c.sent| <= 1
    requires |c.sent| == 1 ==> Fits(cfg, 0, c.sent[0])
    requires c.response.Some? ==> |c.sent| == 1 && c.response == rep.create
    requires |u.sent| <= 1
    requires |u.sent| == 1 ==> Fits(cfg, 1, u.sent[0])
    requires u.response.Some? ==> |u.sent| == 1 && u.response == rep.upload
    ensures |r.sent| <= 4
    ensures |r.sent| >= 2 ==> Succeeded(rep.create) == Returned(true)
    ensures |r.sent| >= 3 ==> Succeeded(rep.upload) == Returned(true)
    ensures r.stage == Permitted <==> |r.sent| == 4 && Succeeded(rep.grant) == Returned(true)
    ensures Succeeded(rep.create) != Returned(true) ==>
      |r.sent| <= 1 && (r.stage == Failed(CreateStep) || r.stage == Crashed(CreateStep))
    ensures r.stage.Failed? || r.stage.Crashed? || r.stage == Permitted
    ensures r.stage == Failed(CreateStep) <==> Succeeded(c.response) == Returned(false)
    ensures r.stage == Crashed(CreateStep) <==> Succeeded(c.response).Raised?
    ensures r.stage == Crashed(UploadStep) <==> Succeeded(c.response) == Returned(true) && Succeeded(u.response).Raised?
    ensures r.stage == Crashed(GrantStep) <==> |r.sent| == 4 && Succeeded(rep.grant).Raised?
    ensures |r.sent| > 0 ==> |c.sent| == 1 && r.sent[0] == c.sent[0]
    ensures |r.sent| > 1 ==> |u.sent| == 1 && r.sent[1] == u.sent[0]
    ensures |r.sent| > 2 ==> (rep.upload.Some? && Index(rep.upload.value, "id").Returned?
      && r.sent[2] == Request(GET, ContentDocOf(Index(rep.upload.value, "id").value), None))
    ensures |r.sent| == 4 ==> (rep.create.Some? && rep.contentDoc.Some?
      && r.sent[3] == Request(POST, At(cfg.urlGrantPermission), GrantPayload(rep.create.value, rep.contentDoc.value)))
    ensures |c.sent| <= |r.sent| && r.sent[..|c.sent|] == c.sent
    ensures |r.sent| > 1 <==> Succeeded(c.response) == Returned(true) && |u.sent| == 1
    ensures |r.sent| > 2 <==> (Succeeded(c.response) == Returned(true) && Succeeded(u.response) == Returned(true)
      && Index(u.response.value, "id").Returned?)
    ensures |r.sent| == 4 <==> (Succeeded(c.response) == Returned(true) && Succeeded(u.response) == Returned(true)
      && Index(u.response.value, "id").Returned?
      && rep.contentDoc.Some? && GrantPayload(c.response.value, rep.contentDoc.value).Some?)
    ensures r.stage == Failed(UploadStep) <==> (Succeeded(c.response) == Returned(true)
      && Succeeded(u.response) == Returned(false))
    ensures r.stage == Failed(GrantStep) <==> (Succeeded(c.response) == Returned(true)
      && Succeeded(u.response) == Returned(true) && (|r.sent| < 4 || Succeeded(rep.grant) == Returned(false)))
  {
    match Succeeded(c.response)
    case Raised => RowRun(c.sent, Crashed(CreateStep))
    case Returned(false) => RowRun(c.sent, Failed(CreateStep))
    case Returned(true) =>
      var a := AfterUpload(cfg, c.response.value, u, rep);
      RowRun(c.sent + a.sent, a.stage)
  }

  /** The create POST of a row goes out: its Name is a string and it has
      the five create columns. */
  predicate SendsCreate(row: map<string, Value>) {
    "Name" in row && row["Name"].Str? && CreatePayload(row).Some?
  }

  /** The upload POST goes out: the create succeeded and the row names an
      existing file. */
  predicate SendsUpload(files: map<string, seq<byte>>, row: map<string, Value>, rep: Replies) {
    SendsCreate(row) && Succeeded(rep.create) == Returned(true) && UploadPayload(row, files).Some?
  }

  /** The content-document lookup goes out: the upload succeeded and its
      reply names the uploaded file. */
  predicate SendsLookup(files: map<string, seq<byte>>, row: map<string, Value>, rep: Replies) {
    SendsUpload(files, row, rep) && Succeeded(rep.upload) == Returned(true) && Index(rep.upload.value, "id").Returned?
  }

  /** The sharing POST goes out: the lookup answered with a content
      document and the create reply names the record. */
  predicate SendsShare(files: map<string, seq<byte>>, row: map<string, Value>, rep: Replies) {
    SendsLookup(files, row, rep) && rep.contentDoc.Some? && GrantPayload(rep.create.value, rep.contentDoc.value).Some?
  }

  /** One iteration of the loop in `process_dataframe`: create the record;
      if that succeeded, upload the file; if that succeeded, share it. The
      requests go out in the planned order, each only after the step before
      it succeeded, and the row ends shared exactly when all four requests
      went out and the last one succeeded. */
  function ProcessRow(cfg: Config, files: map<string, seq<byte>>, row: map<string, Value>, rep: Replies): (r: RowRun)
    ensures |r.sent| <= 4
    ensures forall k :: 0 <= k < |r.sent| ==> Fits(cfg, k, r.sent[k])
    ensures |r.sent| >= 2 ==> Succeeded(rep.create) == Returned(true)
    ensures |r.sent| >= 3 ==> Succeeded(rep.upload) == Returned(true)
    ensures r.stage == Permitted <==> |r.sent| == 4 && Succeeded(rep.grant) == Returned(true)
    ensures Succeeded(rep.create) != Returned(true) ==>
      |r.sent| <= 1 && (r.stage == Failed(CreateStep) || r.stage == Crashed(CreateStep))
    ensures r.stage.Failed? || r.stage.Crashed? || r.stage == Permitted
    ensures r.stage == Crashed(CreateStep) <==> ("Name" !in row || !row["Name"].Str?
      || (CreatePayload(row).Some? && Succeeded(rep.create).Raised?))
    ensures r.stage == Crashed(UploadStep) <==> |r.sent| > 1 && Succeeded(rep.upload).Raised?
    ensures r.stage == Crashed(GrantStep) <==> |r.sent| == 4 && Succeeded(rep.grant).Raised?
    ensures |r.sent| > 0 ==> r.sent[0] == Request(POST, At(cfg.urlToRecord), CreatePayload(row))
    ensures |r.sent| > 1 ==> r.sent[1] == Request(POST, At(cfg.urlFileUpload), UploadPayload(row, files))
    ensures |r.sent| > 2 ==> (rep.upload.Some? && Index(rep.upload.value, "id").Returned?
      && r.sent[2] == Request(GET, ContentDocOf(Index(rep.upload.value, "id").value), None))
    ensures |r.sent| == 4 ==> (rep.create.Some? && rep.contentDoc.Some?
      && r.sent[3] == Request(POST, At(cfg.urlGrantPermission), GrantPayload(rep.create.value, rep.contentDoc.value)))
    ensures |r.sent| > 0 <==> SendsCreate(row)
    ensures |r.sent| > 1 <==> SendsUpload(files, row, rep)
    ensures |r.sent| > 2 <==> SendsLookup(files, row, rep)
    ensures |r.sent| == 4 <==> SendsShare(files, row, rep)
    ensures r.stage == Failed(CreateStep) <==> ("Name" in row && row["Name"].Str?
      && (CreatePayload(row).None? || Succeeded(rep.create) == Returned(false)))
    ensures r.stage == Failed(UploadStep) <==> (SendsCreate(row) && Succeeded(rep.create) == Returned(true)
      && (UploadPayload(row, files).None? || Succeeded(rep.upload) == Returned(false)))
    ensures r.stage == Failed(GrantStep) <==> (SendsUpload(files, row, rep) && Succeeded(rep.upload) == Returned(true)
      && (!SendsShare(files, row, rep) || Succeeded(rep.grant) == Returned(false)))
  {
    match CreateRecord(cfg, row, rep.create)
    case Raised => RowRun([], Crashed(CreateStep))
    case Returned(c) => AfterCreate(cfg, c, UploadJsonFile(cfg, files, row, rep.upload), rep)
  }

  /** When every lookup works and every response reports success, the
      steps after the create send the remaining three requests and the row
      ends shared. */
  lemma AllStepsSucceed(cfg: Config, c: Call, u: Call, rep: Replies)
    requires |c.sent| == 1 && Fits(cfg, 0, c.sent[0]) && c.response == rep.create
    requires |u.sent| == 1 && Fits(cfg, 1, u.sent[0]) && u.response == rep.upload
    requires Succeeded(rep.create) == Returned(true) && Succeeded(rep.upload) == Returned(true)
    requires Index(rep.upload.value, "id").Returned?
    requires rep.contentDoc.Some? && GrantPayload(rep.create.value, rep.contentDoc.value).Some?
    requires Succeeded(rep.grant) == Returned(true)
    ensures AfterCreate(cfg, c, u, rep).stage == Permitted
    ensures |AfterCreate(cfg, c, u, rep).sent| == 4
  {
  }

  /** Replies that report success at every step: the created record's id
      `rid`, the uploaded file's id `fid`, and its content document `cid`. */
  function AllSuccessful(rid: Value, fid: Value, cid: Value): Replies {
    Replies(
      Some(Dict(map["success" := Bool(true), "id" := rid])),
      Some(Dict(map["success" := Bool(true), "id" := fid])),
      Some(Dict(map["records" := List([Dict(map["ContentDocumentId" := cid])])])),
      Some(Dict(map["success" := Bool(true)])))
  }

  /** Replies that pass every check the pipeline makes: each response
      reports success, the upload names the file's id, and the lookup and
      the create reply yield the two ids the sharing link needs. */
  predicate AllPass(rep: Replies) {
    && Succeeded(rep.create) == Returned(true) && Succeeded(rep.upload) == Returned(true)
    && Index(rep.upload.value, "id").Returned?
    && rep.contentDoc.Some? && GrantPayload(rep.create.value, rep.contentDoc.value).Some?
    && Succeeded(rep.grant) == Returned(true)
  }

  /** The successful replies pass every check the pipeline makes. */
  lemma AllSuccessfulPasses(rid: Value, fid: Value, cid: Value)
    ensures AllPass(AllSuccessful(rid, fid, cid))
    ensures Index(AllSuccessful(rid, fid, cid).upload.value, "id") == Returned(fid)
  {
  }

  /** A row with a string Name, the five create columns and the path of an
      existing file, answered with success at every step, ends shared after
      all four requests. */
  lemma SuccessfulRowIsShared(cfg: Config, files: map<string, seq<byte>>, row: map<string, Value>, rep: Replies)
    requires "Name" in row && row["Name"].Str?
    requires "Category" in row && "Description" in row && "Doc" in row && "Type" in row
    requires "Path" in row && row["Path"].Str? && row["Path"].s in files
    requires AllPass(rep)
    ensures ProcessRow(cfg, files, row, rep).stage == Permitted
    ensures |ProcessRow(cfg, files, row, rep).sent| == 4
  {
  }

  /** The outcome of the loop: the requests sent, in order, and the stage
      each attempted row ended in. */
  datatype Run = Run(sent: seq<Request>, stages: seq<Stage>)

  /** The loop over the rows' runs: a row that fails moves the loop on, a
      row that raises ends it. */
  function Sequence(runs: seq<RowRun>): (r: Run)
    ensures |r.stages| <= |runs|
    ensures forall k :: 0 <= k < |r.stages| ==> r.stages[k] == runs[k].stage
    ensures forall k :: 0 <= k < |r.stages| - 1 ==> !r.stages[k].Crashed?
    ensures |r.stages| < |runs| ==> |r.stages| > 0 && r.stages[|r.stages| - 1].Crashed?
    ensures r.sent == Concat(Sent(runs[..|r.stages|]))
    decreases |runs|
  {
    if runs == [] then Run([], [])
    else if runs[0].stage.Crashed? then
      SentFirst(runs, 0);
      Run(runs[0].sent, [runs[0].stage])
    else
      var rest := Sequence(runs[1..]);
      SentFirst(runs, |rest.stages|);
      Run(runs[0].sent + rest.sent, [runs[0].stage] + rest.stages)
  }

  /** The requests of the first n + 1 runs are those of the first run,
      then those of the next n. */
  lemma SentFirst(runs: seq<RowRun>, n: nat)
    requires n < |runs|
    ensures Concat(Sent(runs[..n + 1])) == runs[0].sent + Concat(Sent(runs[1..][..n]))
  {
    assert Sent(runs[..n + 1]) == [runs[0].sent] + Sent(runs[1..][..n]);
    ConcatCons(runs[0].sent, Sent(runs[1..][..n]));
  }

  /** The requests of each run, in order. */
  function Sent(runs: seq<RowRun>): (r: seq<seq<Request>>)
    ensures |r| == |runs| && forall k :: 0 <= k < |runs| ==> r[k] == runs[k].sent
  {
    seq(|runs|, k requires 0 <= k < |runs| => runs[k].sent)
  }

  /** `process_dataframe(rows)`, with `replies(k)` answering the requests
      of row k: the rows are processed in order until one raises; a row
      that fails only moves the loop on. */
  function ProcessDataframe(cfg: Config, files: map<string, seq<byte>>, rows: seq<map<string, Value>>, replies: nat -> Replies): (r: Run)
    ensures |r.stages| <= |rows|
    ensures forall k :: 0 <= k < |r.stages| ==> r.stages[k] == ProcessRow(cfg, files, rows[k], replies(k)).stage
    ensures (forall k :: 0 <= k < |r.stages| ==> !r.stages[k].Crashed?) ==> |r.stages| == |rows|
    ensures forall k :: 0 <= k < |r.stages| - 1 ==> !r.stages[k].Crashed?
    ensures r.sent == Concat(Sent(RowRuns(cfg, files, rows, replies)[..|r.stages|]))
  {
    Sequence(RowRuns(cfg, files, rows, replies))
  }

  /** Each row processed on its own, in order. */
  function RowRuns(cfg: Config, files: map<string, seq<byte>>, rows: seq<map<string, Value>>, replies: nat -> Replies): (runs: seq<RowRun>)
    ensures |runs| == |rows|
    ensures forall k :: 0 <= k < |rows| ==> runs[k] == ProcessRow(cfg, files, rows[k], replies(k))
  {
    seq(|rows|, k requires 0 <= k < |rows| => ProcessRow(cfg, files, rows[k], replies(k)))
  }

  /** A joined row always has the five columns of the create request; an
      upload is attempted only for a row that met a descriptor record. */
  lemma JoinedRowPayloads(j: Parser.JoinedRow, files: map<string, seq<byte>>)
    ensures CreatePayload(Parser.ToRow(j)).Some?
    ensures UploadPayload(Parser.ToRow(j), files).Some? <==> j.found.Some? && j.found.value.path in files
  {
    var row := Parser.ToRow(j);
    assert CreateFields[0].column == "Category" && CreateFields[1].column == "Description";
    assert CreateFields[2].column == "Doc" && CreateFields[3].column == "Type" && CreateFields[4].column == "Name";
  }

  // ---------------------------------------------------------------------
  // The bulk delete (`delete_all_ras`)
  // ---------------------------------------------------------------------

  const AllOrNone: string := "&allOrNone=false"

  /** The URL of the single bulk-delete request. */
  function DeleteUrl(cfg: Config, ids: seq<string>): (u: string)
    ensures StartsWith(u, cfg.urlDeleteAll) && EndsWith(u, AllOrNone)
    ensures |u| >= |cfg.urlDeleteAll| + |AllOrNone|
    ensures u[|cfg.urlDeleteAll|..|u| - |AllOrNone|] == Join(ids, ",")
  {
    cfg.urlDeleteAll + Join(ids, ",") + AllOrNone
  }

  /** The URL carries every Id: cutting off the base and the flag and
      splitting on ',' gives the Ids back, in order, when none contains a
      comma. */
  lemma DeleteUrlCarriesIds(cfg: Config, ids: seq<string>)
    requires |ids| > 0
    requires forall k :: 0 <= k < |ids| ==> ',' !in ids[k]
    ensures var u := DeleteUrl(cfg, ids);
      Split(u[|cfg.urlDeleteAll|..|u| - |AllOrNone|], ',') == ids
  {
    var u := DeleteUrl(cfg, ids);
    assert u[|cfg.urlDeleteAll|..|u| - |AllOrNone|] == Join(ids, [',']);
    SplitJoin(ids, ',');
  }

  /** An item of the bulk-delete response that reports a failure. */
  predicate FailedItem(item: Value) {
    item.Dict? && "success" in item.fields && !Truthy(item.fields["success"])
  }

  /** An item on which the comprehension raises: no "success" entry, or a
      failure without an "id". */
  predicate BadItem(item: Value) {
    Index(item, "success").Raised? || (FailedItem(item) && "id" !in item.fields)
  }

  /** `[item["id"] for item in items if not item["success"]]` */
  function FailedIds(items: seq<Value>): (r: Outcome<seq<Value>>)
    ensures r.Raised? <==> exists k :: 0 <= k < |items| && BadItem(items[k])
    ensures r.Returned? ==> forall x :: x in r.value <==>
      exists k :: 0 <= k < |items| && FailedItem(items[k]) && items[k].fields["id"] == x
    decreases |items|
  {
    if items == [] then Returned([])
    else
      var item, rest := items[0], FailedIds(items[1..]);
      assert forall k :: 1 <= k < |items| ==> items[k] == items[1..][k - 1];
      if BadItem(item) || rest.Raised? then Raised
      else if FailedItem(item) then Returned([item.fields["id"]] + rest.value)
      else rest
  }

  /** The Id texts of the records, or None when one is not a string (the
      `",".join` raises). */
  function IdTexts(records: seq<RemoteRecord>): (r: Option<seq<string>>)
    ensures r.Some? ==> |r.value| == |records| && forall k :: 0 <= k < |records| ==> records[k].id == Str(r.value[k])
    ensures r.None? ==> exists k :: 0 <= k < |records| && !records[k].id.Str?
    decreases |records|
  {
    if records == [] then Some([])
    else if !records[0].id.Str? then None
    else
      match IdTexts(records[1..])
      case None => None
      case Some(rest) => Some([records[0].id.s] + rest)
  }

  /** What the bulk delete sends, and the failed ids it reports or
      `Raised` when it raises. */
  datatype DeleteRun = DeleteRun(sent: seq<Request>, failed: Outcome<seq<Value>>)

  /** `delete_all_ras()` over the existing records, with `reply` the
      response to the DELETE. No records means no request. Ids that are not
      all strings raise before anything is sent. Otherwise a single DELETE
      carries every Id; a missing or non-list reply, or a malformed item,
      then raises after the request went out. */
  function DeleteAllRas(cfg: Config, records: seq<RemoteRecord>, reply: Option<Value>): (r: DeleteRun)
    ensures records == [] ==> r == DeleteRun([], Returned([]))
    ensures records != [] && IdTexts(records).None? ==> r == DeleteRun([], Raised)
    ensures records != [] && IdTexts(records).Some? ==>
      r.sent == [Request(DELETE, At(DeleteUrl(cfg, IdTexts(records).value)), None)]
    ensures r.failed.Raised? <==> (records != [] && (IdTexts(records).None? || reply.None?
      || Elements(reply.value).Raised? || FailedIds(Elements(reply.value).value).Raised?))
    ensures r.failed.Returned? && records != [] ==>
      && reply.Some? && Elements(reply.value).Returned?
      && FailedIds(Elements(reply.value).value) == r.failed
  {
    if records == [] then DeleteRun([], Returned([]))
    else
      match IdTexts(records)
      case None => DeleteRun([], Raised)
      case Some(ids) =>
        var sent := [Request(DELETE, At(DeleteUrl(cfg, ids)), None)];
        match reply
        case None => DeleteRun(sent, Raised)
        case Some(body) =>
          match Elements(body)
          case Raised => DeleteRun(sent, Raised)
          case Returned(items) => DeleteRun(sent, FailedIds(items))
  }

  /** `delete_all_ras()` as written: after computing the failed ids it
      subscripts that list with 'id' whenever it is not empty, which raises
      `TypeError` once the DELETE has already gone out. */
  function DeleteAllRasAsWritten(cfg: Config, records: seq<RemoteRecord>, reply: Option<Value>): (r: DeleteRun)
    ensures r.sent == DeleteAllRas(cfg, records, reply).sent
    ensures r.failed.Returned? <==> DeleteAllRas(cfg, records, reply).failed == Returned([])
    ensures r.failed.Returned? ==> r.failed == Returned([])
  {
    var d := DeleteAllRas(cfg, records, reply);
    match d.failed
    case Raised => d
    case Returned(failed) => if failed != [] then DeleteRun(d.sent, Raised) else d
  }

  /** A single failed deletion makes the code as written raise after
      sending the DELETE, instead of reporting the Id, while the corrected
      version reports exactly it. */
  lemma FailedDeletionRaises(cfg: Config)
    ensures var records := [RemoteRecord(Str("a0X"), Null, Null, Null, Null, Null, Null)];
      var reply := Some(List([Dict(map["id" := Str("a0X"), "success" := Bool(false)])]));
      && DeleteAllRasAsWritten(cfg, records, reply).failed == Raised
      && |DeleteAllRasAsWritten(cfg, records, reply).sent| == 1
      && DeleteAllRas(cfg, records, reply).failed == Returned([Str("a0X")])
  {
    var records := [RemoteRecord(Str("a0X"), Null, Null, Null, Null, Null, Null)];
    var item := Dict(map["id" := Str("a0X"), "success" := Bool(false)]);
    assert records[1..] == [];
    assert IdTexts(records[1..]) == Some([]);
    var ids := IdTexts(records);
    assert ids.Some? && |ids.value| == 1 && ids.value[0] == "a0X";
    assert FailedItem(item) && !BadItem(item);
    assert [item][1..] == [];
    assert FailedIds([item][1..]) == Returned([]);
    var failed := FailedIds([item]);
    assert failed.Returned? && |failed.value| == 1 && failed.value[0] == Str("a0X");
    assert failed.value == [Str("a0X")];
  }
}

=== FILE: scanner.dfy ===
/** The repository scanner (remote-actions-repo.py, of which
    examples/remote-actions-repo.py is a byte-identical copy): it walks a
    script repository, lists the bash and PowerShell scripts and the
    combined-platform YAML files, and builds one record per script from the
    script's YAML description, or a placeholder record when there is none.

    The directory walk is given as the sequence of files it visits, file
    existence as a set of paths, and the YAML files as a map from path to
    the parsed document. */
module RepoScanner {
  import opened Values
  import opened Text

  /** A file the walk visits: the directory it is in and its name. */
  datatype WalkedFile = WalkedFile(root: string, filename: string)

  /** A listed script: its file name, its full path and the platform tag
      its suffix gives. */
  datatype Listed = Listed(filename: string, fullPath: string, tag: string)

  const MacTag: string := "macOS"
  const WindowsTag: string := "Windows"

  /** The platform tag of a script file, or None for a file that is not
      listed: ".sh" files are macOS scripts, ".ps1" files other than
      ".Tests.ps1" test scripts are Windows scripts. */
  function Classify(filename: string): (t: Option<string>)
    ensures t == Some(MacTag) <==> EndsWith(filename, ".sh")
    ensures t == Some(WindowsTag) <==> EndsWith(filename, ".ps1") && !EndsWith(filename, ".Tests.ps1")
    ensures t.Some? ==> t.value == MacTag || t.value == WindowsTag
  {
    EndsWithLast(filename, ".sh");
    EndsWithLast(filename, ".ps1");
    if EndsWith(filename, ".sh") then Some(MacTag)
    else if EndsWith(filename, ".ps1") && !EndsWith(filename, ".Tests.ps1") then Some(WindowsTag)
    else None
  }

  /** A string with a non-empty suffix ends in that suffix's last character. */
  lemma EndsWithLast(s: string, suffix: string)
    ensures EndsWith(s, suffix) && |suffix| > 0 ==> s[|s| - 1] == suffix[|suffix| - 1]
  {
    if EndsWith(s, suffix) && |suffix| > 0 {
      assert s[|s| - |suffix|..][|suffix| - 1] == s[|s| - 1];
    }
  }

  /** A YAML file is never listed as a script. */
  lemma YamlIsNotAScript(filename: string)
    requires EndsWith(filename, ".yaml")
    ensures Classify(filename).None?
  {
    EndsWithLast(filename, ".yaml");
    EndsWithLast(filename, ".sh");
    EndsWithLast(filename, ".ps1");
  }

  /** The entry a walked file contributes to the script list, if any. */
  function ListingOf(f: WalkedFile): Option<Listed> {
    match Classify(f.filename)
    case None => None
    case Some(tag) => Some(Listed(f.filename, PathJoin(f.root, f.filename), tag))
  }

  /** The script list of the walk, in traversal order. */
  function ListScripts(files: seq<WalkedFile>): (r: seq<Listed>)
    ensures |r| <= |files|
    ensures forall x :: x in r ==> exists k :: 0 <= k < |files| && ListingOf(files[k]) == Some(x)
    ensures forall k :: 0 <= k < |files| && ListingOf(files[k]).Some? ==> ListingOf(files[k]).value in r
    decreases |files|
  {
    if files == [] then []
    else
      var rest := ListScripts(files[1..]);
      var r := if ListingOf(files[0]).Some? then [ListingOf(files[0]).value] + rest else rest;
      ListingStep(files, rest, r);
      r
  }

  /** One step of the listing: a list `r` made of the first file's listing,
      if any, and of `rest`, the listing of the other files, holds exactly
      the listings of all the files. */
  lemma ListingStep(files: seq<WalkedFile>, rest: seq<Listed>, r: seq<Listed>)
    requires |files| > 0
    requires r == if ListingOf(files[0]).Some? then [ListingOf(files[0]).value] + rest else rest
    requires forall x :: x in rest ==> exists k :: 0 <= k < |files[1..]| && ListingOf(files[1..][k]) == Some(x)
    requires forall k :: 0 <= k < |files[1..]| && ListingOf(files[1..][k]).Some? ==> ListingOf(files[1..][k]).value in rest
    ensures forall x :: x in r ==> exists k :: 0 <= k < |files| && ListingOf(files[k]) == Some(x)
    ensures forall k :: 0 <= k < |files| && ListingOf(files[k]).Some? ==> ListingOf(files[k]).value in r
  {
    forall x | x in r
      ensures exists k :: 0 <= k < |files| && ListingOf(files[k]) == Some(x)
    {
      if x !in rest {
        assert ListingOf(files[0]) == Some(x);
      } else {
        var k :| 0 <= k < |files[1..]| && ListingOf(files[1..][k]) == Some(x);
        assert files[k + 1] == files[1..][k];
      }
    }
    forall k | 1 <= k < |files| && ListingOf(files[k]).Some?
      ensures ListingOf(files[k]).value in r
    {
      assert files[k] == files[1..][k - 1];
    }
  }

  /** Listing a walk split in two lists the first part, then the second. */
  lemma {:induction false} ListScriptsAppend(a: seq<WalkedFile>, b: seq<WalkedFile>)
    ensures ListScripts(a + b) == ListScripts(a) + ListScripts(b)
    decreases |a|
  {
    if a == [] {
      assert a + b == b;
    } else {
      assert (a + b)[0] == a[0];
      assert (a + b)[1..] == a[1..] + b;
      ListScriptsAppend(a[1..], b);
    }
  }

  /** Whether a file is a combined-platform YAML description: a ".yaml" file
      whose lower-cased name contains "combined". */
  predicate IsCombinedYaml(filename: string) {
    EndsWith(filename, ".yaml") && Contains(Lower(filename), "combined")
  }

  /** The combined-platform YAML files of the walk, in traversal order. */
  function CombinedYamls(files: seq<WalkedFile>): (r: seq<string>)
    ensures |r| <= |files|
    ensures forall n :: n in r <==> exists k :: 0 <= k < |files| && files[k].filename == n && IsCombinedYaml(n)
    decreases |files|
  {
    if files == [] then []
    else
      var rest := CombinedYamls(files[1..]);
      assert forall k :: 1 <= k < |files| ==> files[k] == files[1..][k - 1];
      if IsCombinedYaml(files[0].filename) then [files[0].filename] + rest else rest
  }

  /** The detection ignores case: "COMBINED" and "Combined" count too. */
  lemma CombinedIgnoresCase(filename: string)
    ensures IsCombinedYaml(filename) <==> IsCombinedYaml(Lower(filename)) && EndsWith(filename, ".yaml")
  {
    LowerIdempotent(filename);
  }

  lemma LowerIdempotent(s: string)
    ensures Lower(Lower(s)) == Lower(s)
  {
  }

  /** The path of a script's YAML description: the full path with its last
      extension replaced by ".yaml". */
  function YamlPath(fullPath: string): (y: string)
    ensures EndsWith(y, ".yaml")
  {
    SplitExt(fullPath).0 + ".yaml"
  }

  /** A string that ends in something other than '.' has a non-dot. */
  lemma {:induction false} NonDotLast(s: string)
    requires |s| > 0 && s[|s| - 1] != '.'
    ensures HasNonDot(s)
    decreases |s|
  {
    if s[0] == '.' {
      assert |s| > 1;
      assert s[1..][|s[1..]| - 1] == s[|s| - 1];
      NonDotLast(s[1..]);
    }
  }

  /** The YAML description of a script `stem + ext`, where `ext` is ".sh"
      or ".ps1" and the stem ends in a character that is neither '/' nor
      '.', sits beside the script as `stem + ".yaml"`. */
  lemma YamlPathOfScript(stem: string, ext: string)
    requires ext == ".sh" || ext == ".ps1"
    requires |stem| > 0 && stem[|stem| - 1] != '/' && stem[|stem| - 1] != '.'
    ensures YamlPath(stem + ext) == stem + ".yaml"
  {
    SplitExtOfScript(stem, ext);
  }

  /** The extension of a script path `stem + ext` is `ext`. */
  lemma SplitExtOfScript(stem: string, ext: string)
    requires ext == ".sh" || ext == ".ps1"
    requires |stem| > 0 && stem[|stem| - 1] != '/' && stem[|stem| - 1] != '.'
    ensures SplitExt(stem + ext) == (stem, ext)
  {
    var p := stem + ext;
    var sep, dot := LastIndexOf(p, '/'), LastIndexOf(p, '.');
    LastMarksOfScript(stem, ext);
    assert HasNonDot(p[sep + 1..dot]) by {
      assert p[sep + 1..dot] == stem[sep + 1..];
      NonDotLast(stem[sep + 1..]);
    }
    assert p[..dot] == stem && p[dot..] == ext;
  }

  /** In a script path `stem + ext` the last '.' opens the extension and
      the last '/' lies inside the stem. */
  lemma LastMarksOfScript(stem: string, ext: string)
    requires ext == ".sh" || ext == ".ps1"
    requires |stem| > 0
    ensures LastIndexOf(stem + ext, '.') == |stem|
    ensures LastIndexOf(stem + ext, '/') < |stem|
  {
    var p := stem + ext;
    assert p[|stem|] == '.';
    assert forall j :: |stem| < j < |p| ==> p[j] == ext[j - |stem|];
  }

  /** The path of a script's JSON descriptor: the descriptor directory,
      then the script's full file name, extension included, then ".json". */
  function JsonPath(jsonRoot: string, filename: string): (j: string)
    ensures |j| == |jsonRoot| + |filename| + 5
    ensures StartsWith(j, jsonRoot) && EndsWith(j, ".json")
    ensures j[|jsonRoot|..|j| - 5] == filename
  {
    jsonRoot + filename + ".json"
  }

  /** A record of the scan. `scriptFile` is None on a placeholder record,
      which has no 'Script file name' column. */
  datatype RaEntry = RaEntry(
    raName: Value,
    synopsis: Value,
    os: Value,
    version: Value,
    scriptFile: Option<string>,
    originPath: string,
    jsonPath: string)

  /** `v[0]`: the first item of a list, the first character of a string;
      anything else raises. */
  function First(v: Value): (r: Outcome<Value>)
    ensures v.List? && |v.items| > 0 ==> r == Returned(v.items[0])
    ensures v.Str? && |v.s| > 0 ==> r == Returned(Str([v.s[0]]))
    ensures r.Returned? ==> (v.List? || v.Str?)
    ensures r.Returned? <==> (v.List? && |v.items| > 0) || (v.Str? && |v.s| > 0)
  {
    match v
    case List(xs) => if |xs| > 0 then Returned(xs[0]) else Raised
    case Str(s) => if |s| > 0 then Returned(Str([s[0]])) else Raised
    case _ => Raised
  }

  /** The record of a script with a YAML description `doc`: name and
      synopsis of its "action", the platform it names (the suffix tag when
      it names none) and the first of its versions. A description without
      these raises. */
  function YamlEntry(s: Listed, doc: Value, jsonPath: string): (r: Outcome<RaEntry>)
    ensures r.Returned? <==> (
      && Index(doc, "action").Returned?
      && Index(Index(doc, "action").value, "name").Returned?
      && Index(Index(doc, "action").value, "synopsis").Returned?
      && Index(Index(doc, "action").value, "version").Returned?
      && First(Index(Index(doc, "action").value, "version").value).Returned?)
    ensures r.Returned? ==> Index(doc, "action").Returned?
    ensures r.Returned? ==>
      var action := Index(doc, "action").value;
      && action.Dict?
      && Index(action, "name") == Returned(r.value.raName)
      && Index(action, "synopsis") == Returned(r.value.synopsis)
      && r.value.os == (if "platform" in action.fields then action.fields["platform"] else Str(s.tag))
      && Index(action, "version").Returned?
      && First(Index(action, "version").value) == Returned(r.value.version)
      && r.value.scriptFile == Some(s.filename)
      && r.value.originPath == s.fullPath
      && r.value.jsonPath == jsonPath
  {
    match Index(doc, "action")
    case Raised => Raised
    case Returned(action) =>
      match Index(action, "name")
      case Raised => Raised
      case Returned(name) =>
        match Index(action, "synopsis")
        case Raised => Raised
        case Returned(synopsis) =>
          var os := if "platform" in action.fields then action.fields["platform"] else Str(s.tag);
          match Index(action, "version")
          case Raised => Raised
          case Returned(versions) =>
            match First(versions)
            case Raised => Raised
            case Returned(version) => Returned(RaEntry(name, synopsis, os, version, Some(s.filename), s.fullPath, jsonPath))
  }

  /** A YAML description written from the fields of a record. */
  function Description(name: Value, synopsis: Value, platform: Option<Value>, version: Value): Value {
    var action := map["name" := name, "synopsis" := synopsis, "version" := List([version])];
    Dict(map["action" := Dict(match platform case None => action case Some(p) => action["platform" := p])])
  }

  /** Reading a description back gives the record it was written from; the
      platform falls back to the suffix tag when the description names
      none. */
  lemma DescriptionReadsBack(s: Listed, name: Value, synopsis: Value, platform: Option<Value>, version: Value, jsonPath: string)
    ensures YamlEntry(s, Description(name, synopsis, platform, version), jsonPath) ==
      Returned(RaEntry(name, synopsis, (match platform case None => Str(s.tag) case Some(p) => p),
                       version, Some(s.filename), s.fullPath, jsonPath))
  {
    var action := Index(Description(name, synopsis, platform, version), "action").value;
    assert Index(action, "version") == Returned(List([version]));
  }

  const NotAvailable: Value := Str("NA")

  /** The record of a script without a YAML description: named by its file
      name, with "NA" for synopsis, platform and version. */
  function PlaceholderEntry(s: Listed, jsonPath: string): (e: RaEntry)
    ensures e.scriptFile.None? && e.raName == Str(s.filename)
    ensures e.synopsis == e.os == e.version == Str("NA")
    ensures e.originPath == s.fullPath && e.jsonPath == jsonPath
  {
    RaEntry(Str(s.filename), NotAvailable, NotAvailable, NotAvailable, None, s.fullPath, jsonPath)
  }

  /** The record of one existing listed script. */
  function EntryFor(jsonRoot: string, s: Listed, yamls: map<string, Value>): (r: Outcome<RaEntry>)
    ensures YamlPath(s.fullPath) !in yamls ==>
      r == Returned(RaEntry(Str(s.filename), Str("NA"), Str("NA"), Str("NA"), None, s.fullPath, JsonPath(jsonRoot, s.filename)))
    ensures r.Returned? ==> r.value.originPath == s.fullPath && r.value.jsonPath == JsonPath(jsonRoot, s.filename)
    ensures r.Returned? ==> (r.value.scriptFile.Some? <==> YamlPath(s.fullPath) in yamls)
    ensures YamlPath(s.fullPath) in yamls ==>
      r == YamlEntry(s, yamls[YamlPath(s.fullPath)], JsonPath(jsonRoot, s.filename))
  {
    var json := JsonPath(jsonRoot, s.filename);
    var yaml := YamlPath(s.fullPath);
    if yaml in yamls then YamlEntry(s, yamls[yaml], json) else Returned(PlaceholderEntry(s, json))
  }

  /** The listed scripts that exist, in order. */
  function ExistingScripts(scripts: seq<Listed>, existing: set<string>): (r: seq<Listed>)
    ensures |r| <= |scripts|
    ensures forall x :: x in r <==> x in scripts && x.fullPath in existing
    decreases |scripts|
  {
    if scripts == [] then []
    else
      var rest := ExistingScripts(scripts[1..], existing);
      assert forall x :: x in scripts <==> x == scripts[0] || x in scripts[1..];
      if scripts[0].fullPath in existing then [scripts[0]] + rest else rest
  }

  /** The existence filter keeps the listing order: filtering a list split
      in two filters the first part, then the second. */
  lemma {:induction false} ExistingScriptsAppend(a: seq<Listed>, b: seq<Listed>, existing: set<string>)
    ensures ExistingScripts(a + b, existing) == ExistingScripts(a, existing) + ExistingScripts(b, existing)
    decreases |a|
  {
    if a == [] {
      assert a + b == b;
    } else {
      assert (a + b)[0] == a[0];
      assert (a + b)[1..] == a[1..] + b;
      ExistingScriptsAppend(a[1..], b, existing);
    }
  }

  /** The record, or the failure, of each existing listed script. */
  function Entries(jsonRoot: string, present: seq<Listed>, yamls: map<string, Value>): (r: seq<Outcome<RaEntry>>)
    ensures |r| == |present|
    ensures forall k :: 0 <= k < |present| ==> r[k] == EntryFor(jsonRoot, present[k], yamls)
  {
    seq(|present|, k requires 0 <= k < |present| => EntryFor(jsonRoot, present[k], yamls))
  }

  /** The loop over the existing listed scripts: one record per script,
      in listing order; a YAML description without the expected fields
      raises and ends the scan. */
  function BuildRecords(jsonRoot: string, present: seq<Listed>, yamls: map<string, Value>): (r: Outcome<seq<RaEntry>>)
    ensures r.Raised? <==> exists k :: 0 <= k < |present| && EntryFor(jsonRoot, present[k], yamls).Raised?
    ensures r.Returned? ==> |r.value| == |present|
    ensures r.Returned? ==> forall k :: 0 <= k < |present| ==> EntryFor(jsonRoot, present[k], yamls) == Returned(r.value[k])
  {
    var outs := Entries(jsonRoot, present, yamls);
    Gather(outs)
  }

  /** Every record of a scan stands for a script the walk listed and that
      exists, and it is a placeholder exactly when that script has no YAML
      description beside it. */
  lemma ScanRecordsAreListedScripts(files: seq<WalkedFile>, jsonRoot: string, existing: set<string>, yamls: map<string, Value>)
    ensures var r := ScanRepository(files, jsonRoot, existing, yamls);
      r.Returned? ==> forall i :: 0 <= i < |r.value.records| ==>
        && r.value.records[i].originPath in existing
        && (exists k :: 0 <= k < |files| && ListingOf(files[k]).Some? && ListingOf(files[k]).value.fullPath == r.value.records[i].originPath)
        && (r.value.records[i].scriptFile.None? <==> YamlPath(r.value.records[i].originPath) !in yamls)
  {
    var r := ScanRepository(files, jsonRoot, existing, yamls);
    if r.Returned? {
      var listed := ListScripts(files);
      var present := ExistingScripts(listed, existing);
      var b := BuildRecords(jsonRoot, present, yamls);
      assert b.Returned? && r.value.records == b.value;
      forall i | 0 <= i < |r.value.records|
        ensures r.value.records[i].originPath in existing
        ensures exists k :: 0 <= k < |files| && ListingOf(files[k]).Some? && ListingOf(files[k]).value.fullPath == r.value.records[i].originPath
        ensures r.value.records[i].scriptFile.None? <==> YamlPath(r.value.records[i].originPath) !in yamls
      {
        var s := present[i];
        assert EntryFor(jsonRoot, s, yamls) == Returned(b.value[i]);
        assert s in present;
        assert s in listed && s.fullPath in existing;
        var k :| 0 <= k < |files| && ListingOf(files[k]) == Some(s);
      }
    }
  }

  /** The outcome of a scan: the combined-platform YAML files and the
      records. */
  datatype Scan = Scan(combined: seq<string>, records: seq<RaEntry>)

  /** `main()` up to the spreadsheet it writes. */
  function ScanRepository(files: seq<WalkedFile>, jsonRoot: string, existing: set<string>, yamls: map<string, Value>): (r: Outcome<Scan>)
    ensures r.Returned? ==> r.value.combined == CombinedYamls(files)
    ensures r.Returned? ==> |r.value.records| <= |files|
    ensures r.Raised? <==> BuildRecords(jsonRoot, ExistingScripts(ListScripts(files), existing), yamls).Raised?
    ensures r.Returned? ==> r.value.records == BuildRecords(jsonRoot, ExistingScripts(ListScripts(files), existing), yamls).value
  {
    match BuildRecords(jsonRoot, ExistingScripts(ListScripts(files), existing), yamls)
    case Raised => Raised
    case Returned(records) => Returned(Scan(CombinedYamls(files), records))
  }
}

=== FILE: text.dfy ===
/** The string and POSIX path operations the program takes from Python's
    `str` and `os.path`: suffix tests, case folding, joining, splitting,
    basename and extension splitting. Paths use '/' as the only separator. */
module Text {

  /** `s.endswith(suffix)` */
  predicate EndsWith(s: string, suffix: string) {
    |suffix| <= |s| && s[|s| - |suffix|..] == suffix
  }

  /** `s.startswith(prefix)` */
  predicate StartsWith(s: string, prefix: string) {
    |prefix| <= |s| && s[..|prefix|] == prefix
  }

  /** `sub in s` for strings */
  predicate Contains(s: string, sub: string)
    decreases |s|
  {
    StartsWith(s, sub) || (|s| > 0 && Contains(s[1..], sub))
  }

  /** `c.lower()` for ASCII letters; every other character is kept. */
  function LowerChar(c: char): char {
    if 'A' <= c <= 'Z' then (c as int - 'A' as int + 'a' as int) as char else c
  }

  /** `s.lower()`, folding ASCII letters only */
  function Lower(s: string): string {
    seq(|s|, i requires 0 <= i < |s| => LowerChar(s[i]))
  }

  /** The position of the last `c` in `s`, or -1 (`s.rfind(c)`). */
  function LastIndexOf(s: string, c: char): (i: int)
    ensures -1 <= i < |s|
    ensures i >= 0 ==> s[i] == c
    ensures forall j :: i < j < |s| ==> s[j] != c
    decreases |s|
  {
    if |s| == 0 then -1
    else if s[|s| - 1] == c then |s| - 1
    else LastIndexOf(s[..|s| - 1], c)
  }

  /** The position of the first `c` in `s`, or -1 (`s.find(c)`). */
  function IndexOf(s: string, c: char): (i: int)
    ensures -1 <= i < |s|
    ensures i >= 0 ==> s[i] == c
    ensures forall j :: 0 <= j < |s| && (i < 0 || j < i) ==> s[j] != c
    decreases |s|
  {
    if |s| == 0 then -1
    else if s[0] == c then 0
    else var k := IndexOf(s[1..], c); if k < 0 then -1 else k + 1
  }

  /** `sep.join(parts)` */
  function Join(parts: seq<string>, sep: string): string
    decreases |parts|
  {
    if |parts| == 0 then ""
    else if |parts| == 1 then parts[0]
    else parts[0] + sep + Join(parts[1..], sep)
  }

  /** `s.split(c)` for a one-character separator */
  function Split(s: string, c: char): (parts: seq<string>)
    ensures |parts| > 0
    decreases |s|
  {
    var i := IndexOf(s, c);
    if i < 0 then [s] else [s[..i]] + Split(s[i + 1..], c)
  }

  /** Splitting a joined list on its separator gives the list back, as long
      as no element contains the separator. */
  lemma {:induction false} SplitJoin(parts: seq<string>, c: char)
    requires |parts| > 0
    requires forall k :: 0 <= k < |parts| ==> c !in parts[k]
    ensures Split(Join(parts, [c]), c) == parts
    decreases |parts|
  {
    if |parts| == 1 {
      assert IndexOf(parts[0], c) < 0;
    } else {
      var p, rest := parts[0], Join(parts[1..], [c]);
      var s := p + [c] + rest;
      assert Join(parts, [c]) == s;
      assert s[|p|] == c;
      var i := IndexOf(s, c);
      assert i == |p|;
      assert s[..i] == p;
      assert s[i + 1..] == rest;
      SplitJoin(parts[1..], c);
      assert Split(s, c) == [p] + parts[1..];
    }
  }

  /** `os.path.join(a, b)` with POSIX separators: an absolute `b` replaces
      `a`, otherwise one '/' is inserted unless `a` is empty or already ends
      with one. */
  function PathJoin(a: string, b: string): (p: string)
    ensures EndsWith(p, b)
  {
    if StartsWith(b, "/") then b
    else if a == "" || EndsWith(a, "/") then a + b
    else a + "/" + b
  }

  /** `os.path.basename(p)`: everything after the last '/'. */
  function Basename(p: string): (r: string)
    ensures EndsWith(p, r)
    ensures forall k :: 0 <= k < |r| ==> r[k] != '/'
    ensures |r| < |p| ==> p[|p| - |r| - 1] == '/'
  {
    var i := LastIndexOf(p, '/');
    p[i + 1..]
  }

  /** Whether `s` has a character other than '.' */
  predicate HasNonDot(s: string)
    decreases |s|
  {
    |s| > 0 && (s[0] != '.' || HasNonDot(s[1..]))
  }

  /** `os.path.splitext(p)`: the extension runs from the last '.' of the last
      path component, provided that component has some other character
      before it (so ".sh" and "..sh" have no extension). */
  function SplitExt(p: string): (r: (string, string))
    ensures r.0 + r.1 == p
    ensures |r.1| > 0 ==> r.1[0] == '.'
    ensures forall k :: 0 < k < |r.1| ==> r.1[k] != '.' && r.1[k] != '/'
  {
    SplitExtAt(p, LastIndexOf(p, '/'), LastIndexOf(p, '.'))
  }

  /** `SplitExt` once the last separator and the last dot are located. */
  function SplitExtAt(p: string, sep: int, dot: int): (r: (string, string))
    requires -1 <= sep < |p| && -1 <= dot < |p|
    requires dot >= 0 ==> p[dot] == '.'
    requires forall j :: sep < j < |p| ==> p[j] != '/'
    requires forall j :: dot < j < |p| ==> p[j] != '.'
    ensures r.0 + r.1 == p
    ensures |r.1| > 0 ==> r.1[0] == '.'
    ensures forall k :: 0 < k < |r.1| ==> r.1[k] != '.' && r.1[k] != '/'
  {
    if dot > sep && HasNonDot(p[sep + 1..dot]) then (p[..dot], p[dot..]) else (p, "")
  }

  /** The concatenation of `parts`, in order, left to right. */
  function Concat<T>(parts: seq<seq<T>>): seq<T>
    decreases |parts|
  {
    if |parts| == 0 then [] else Concat(parts[..|parts| - 1]) + parts[|parts| - 1]
  }

  /** The concatenation can also be read right to left: the first part,
      then the concatenation of the rest. */
  lemma {:induction false} ConcatCons<T>(x: seq<T>, parts: seq<seq<T>>)
    ensures Concat([x] + parts) == x + Concat(parts)
    decreases |parts|
  {
    if parts == [] {
      assert [x] + parts == [x];
      assert [x][..0] == [];
    } else {
      var n := |parts|;
      assert ([x] + parts)[..n] == [x] + parts[..n - 1];
      ConcatCons(x, parts[..n - 1]);
    }
  }
}

=== FILE: values.dfy ===
/** Python-side values shared by every module of the model: the optional
    result of a lookup or of an HTTP call, the outcome of code that may raise,
    and the dynamically typed values that `json.load`, `yaml.full_load` and
    pandas cells hand to the program. */
module Values {

  /** A value that may be absent: a failed HTTP call, a missing file, a
      helper that returned `None`. */
  datatype Option<+T> = None | Some(value: T)

  /** The result of Python code that either returns or lets an exception
      escape to its caller (and, with no handler there, ends the program). */
  datatype Outcome<+T> = Returned(value: T) | Raised

  /** The Python values the program reads: JSON and YAML documents, and the
      cells of a pandas row. `Null` is `None` (JSON `null`), `NaN` is the
      float pandas puts in a cell a left join left empty. Dictionary keys
      are strings. */
  datatype Value =
    | Null
    | Bool(b: bool)
    | Num(n: real)
    | NaN
    | Str(s: string)
    | List(items: seq<Value>)
    | Dict(fields: map<string, Value>)

  /** Python truthiness: `bool(v)`. NaN is a non-zero float, so it is true. */
  predicate Truthy(v: Value) {
    match v
    case Null => false
    case Bool(b) => b
    case Num(n) => n != 0.0
    case NaN => true
    case Str(s) => s != ""
    case List(xs) => xs != []
    case Dict(m) => m != map[]
  }

  /** `d.get(key)`: the stored value, or `None` when the key is absent. */
  function Get(d: map<string, Value>, key: string): Value {
    if key in d then d[key] else Null
  }

  /** `d[key]` on a value that must be a dictionary holding `key`; any other
      shape raises (`KeyError` or `TypeError`). */
  function Index(v: Value, key: string): Outcome<Value> {
    if v.Dict? && key in v.fields then Returned(v.fields[key]) else Raised
  }

  /** A loop whose steps may raise, run to the end: the results of all
      steps, in order, or `Raised` when one of them raised. */
  function Gather<T>(outs: seq<Outcome<T>>): (r: Outcome<seq<T>>)
    ensures r.Raised? <==> exists k :: 0 <= k < |outs| && outs[k].Raised?
    ensures r.Returned? ==> |r.value| == |outs|
    ensures r.Returned? ==> forall k :: 0 <= k < |outs| ==> outs[k] == Returned(r.value[k])
    decreases |outs|
  {
    if outs == [] then Returned([])
    else
      var rest := Gather(outs[1..]);
      assert forall k :: 1 <= k < |outs| ==> outs[k] == outs[1..][k - 1];
      if outs[0].Raised? || rest.Raised? then Raised else Returned([outs[0].value] + rest.value)
  }

  /** What a `for x in v` loop visits, when the loop body subscripts every
      element with a string key: a list yields its items; an empty string or
      dictionary yields nothing; a non-empty string or dictionary yields
      strings, on which the body raises; anything else is not iterable. */
  function Elements(v: Value): Outcome<seq<Value>> {
    match v
    case List(xs) => Returned(xs)
    case Str(s) => if s == "" then Returned([]) else Raised
    case Dict(m) => if m == map[] then Returned([]) else Raised
    case _ => Raised
  }
}
